=== FILE: README.md ===
# PyTigris decision logic in Dafny

PyTigris fetches US Census TIGER/Line boundary files and cartographic
boundary (cb) files as geo data frames. This project models the parts of the
library that decide things, with the downloads and the geometry taken away:

- **URL rules** (`urls.dfy`, module `Urls`). `construct_url` maps a year, a
  geography type, the cb flag, a resolution and a state to the archive URL of
  one of the Census Bureau's directory layouts, or to an error. The model also
  covers `get_state_name` and the per-state folder name of 2008 and 2009.
- **Identifier resolution** (`validate.dfy`, module `Validate`).
  `validate_state` turns a FIPS code, name or abbreviation into a state code.
  `validate_county` turns a county code or part of a county name into a
  county code of that state. Both reference tables are immutable sequences of
  records (`tables.dfy`).
- **Column normalisation** (`columns.dfy`, module `Columns`).
  `standardise_df` acts on the list of column names: vintage suffixes are
  stripped and legacy code columns renamed.
- **Cache decision** (`cache.dfy`, module `Cache`). `load_tiger` stores an
  archive under the last segment of its URL and chooses between fetching and
  reusing.
- **Entry points** (`enum_units.dfy` with `frames.dfy`). `get_states`,
  `get_counties` and `get_tracts` each:
  - check the resolution and resolve the state and county tokens;
  - ask for one URL;
  - select rows by state or county code;
  - rebuild the 1990 and 2000 tract codes;
  - merge the 1990 and 2000 pieces that share a key.

  `load_tiger` is a function parameter from URL to rows. A row maps column
  names to strings, and a missing key stands for a null.
- **Constants** (`constants.dfy`). The `Resolution` values, the
  `SchoolDistrict` fallback lookup and `SUMMARY_LEVEL_CODES`.

Python's string operations are modelled on ASCII in `text.dfy`:
- `lower`, `upper` and `strip`;
- `isnumeric`, as ASCII digits only;
- `str(int)`, substring search, and `str.pad` on the left.

Renaming every column of one name (pandas `replace` on a name list) is
`Seqs.Replace`.

The `ValueError`s the library raises itself are `Err`s of `results.dfy`. So
are two other errors:
- the `KeyError` of an unknown cb 2010 type, which the lookup in the
  `numberDict` dictionary of `construct_url` raises (util.py:29-30);
- the `IndexError` of `get_state_name` on a missing code, raised by the
  pandas `.iloc[0]` on an empty selection (util.py:66).

The other pandas errors are not modelled: a missing column and I/O failures
are listed under "## Left out".

The column normalisation is not idempotent. A second pass strips a second
vintage suffix (`Columns.StandardiseNotIdempotent`). A second pass changes
nothing exactly when the first pass left no vintage suffix behind
(`Columns.StandardiseIdempotent`).

## Model

| member | source | states |
|---|---|---|
| `Constants.ParseResolution` | src/pytigris/constants.py:6-9 | Looking up a `Resolution` by value finds the member with exactly that value; no member has any other value |
| `Constants.ResolutionValuesAccepted` | src/pytigris/enum_units.py:31-32 | The resolution strings the entry points accept are exactly the three `Resolution` values, and each value looks its member up |
| `Constants.AllSchoolDistricts` | src/pytigris/constants.py:11-14 | The loop of `_missing_` visits every `SchoolDistrict` member |
| `Constants.MissingSchoolDistrict` | src/pytigris/constants.py:16-23 | The fallback returns a member whose name is the upper-cased token or whose value is the lower-cased token; `None` means no member matches either way |
| `Constants.SchoolDistrictOf` | src/pytigris/constants.py:11-23 | Construction from a token: the exact value, else the fallback; the result always matches the token, and `None` (ValueError) only when nothing matches |
| `Constants.SchoolDistrictMatchUnique` | src/pytigris/constants.py:20-22 | At most one member matches any token, so the loop's order does not matter |
| `Constants.SchoolDistrictByName` | src/pytigris/constants.py:18-22 | A member's name in any letter case finds that member (`'unified'` gives UNIFIED) |
| `Constants.SchoolDistrictByValue` | src/pytigris/constants.py:19-22 | A member's value in any letter case finds that member (`'UNSD'` gives UNIFIED) |
| `Constants.SchoolDistrictExamples` | src/pytigris/constants.py:17-23 | `'unified'`, `'UNSD'` and `'Elementary'` resolve and `'district'` gives `None` |
| `Constants.SummaryLevelCode` | src/pytigris/constants.py:25-37 | Every summary-level code is a three-digit string, and exactly the eleven listed geographies have one |
| `Constants.BlockAndBlockGroupShareCode` | src/pytigris/constants.py:31-32 | Block and block group share code 150 |
| `Text.ContainsIff` | src/pytigris/util.py:192 | The literal substring test holds exactly when the needle occurs at some position of the haystack |
| `Text.NatToString` | src/pytigris/util.py:26 | `str(year)` is a string of digits without a leading zero, one digit long exactly below ten |
| `Text.NatToStringValue` | src/pytigris/util.py:26 | The digits of `str(n)`, read as a decimal number, give back `n` |
| `Text.LeftPad` | src/pytigris/enum_units.py:161 | Left padding keeps the text as a suffix, fills only with the pad character and reaches the width |
| `Urls.GetStateName` | src/pytigris/util.py:64-66 | A name is found exactly when the table has the code, and it is the name of a row with that code |
| `Urls.StateFolderName` | src/pytigris/util.py:54 | The 2008/2009 folder name exists exactly when the table has the code |
| `Urls.Archive` | src/pytigris/util.py:20 | Every archive URL starts with `https://www2.census.gov/geo/tiger/` and ends in `.zip` |
| `Urls.CbUrl` | src/pytigris/util.py:21-41 | The cb branch succeeds exactly for 1990, 2000, 2010 state/county/tract, 2012 cd/sldl/sldu/ua and every year from 2013 |
| `Urls.TigerUrl` | src/pytigris/util.py:42-60 | The full TIGER/Line branch succeeds exactly for 2000, 2010, years after 2010, and 2008/2009 national state or county files or states the table names |
| `Urls.ConstructUrl` | src/pytigris/util.py:16-62 | Every URL is a zip under the root, and a URL is built exactly for the published combinations (`Published`), an error otherwise |
| `Urls.CbLegacyUrl` | src/pytigris/util.py:22-27 | cb 1990/2000: `PREVGENZ/{ab}/{ab}{yy}shp/{ab}{v}_d{yy}_shp.zip`, with `v` the state for tracts and `99` otherwise |
| `Urls.Cb2010Url` | src/pytigris/util.py:28-30 | cb 2010: `GENZ2010/gz_2010_{state}_{code}_00_{res}.zip`, the code being the type's summary-level code; any other type fails |
| `Urls.Cb2012Url` | src/pytigris/util.py:33-37 | cb 2012: `GENZ2012/shp/cb_rd13_...` for cd, sldl, sldu and ua only; any other type fails |
| `Urls.CbModernUrl` | src/pytigris/util.py:31-39 | cb 2013 lives in `GENZ2013/`, every later year in `GENZ{year}/shp/` |
| `Urls.CbYearRejected` | src/pytigris/util.py:40-41 | cb requests for any other year fail |
| `Urls.Tiger2000And2010Url` | src/pytigris/util.py:47-49 | TIGER/Line 2000 and 2010 share `TIGER2010/{TYPE}/{year}/tl_2010_{state}_{type}{yy}.zip` |
| `Urls.Tiger2008And2009NationalUrl` | src/pytigris/util.py:51-52 | TIGER/Line 2008/2009 national state and county files are flat: `TIGER{year}/tl_{year}_us_{type}.zip` |
| `Urls.Tiger2008And2009StateUrl` | src/pytigris/util.py:53-56 | Other 2008/2009 files sit in `{state}_{NAME}` with blanks as underscores and `00` on the type; a code the table lacks fails |
| `Urls.TigerModernUrl` | src/pytigris/util.py:57-58 | TIGER/Line after 2010: `TIGER{year}/{TYPE}/tl_{year}_{state}_{type}.zip` |
| `Urls.TigerYearRejected` | src/pytigris/util.py:44-60 | TIGER/Line 1990 fails with the cb hint; any other year before 2011 outside 2000/2008/2009/2010 fails |
| `Urls.ConstructUrlExamples` | src/pytigris/util.py:33-58 | The 2020 national state file's URL; full TIGER/Line 1990 and cb 2012 tracts fail |
| `Validate.ValidateState` | src/pytigris/util.py:149-172 | A resolved code is a code of the table, and the token (lower-cased, stripped) denotes that row; a numeric token shorter than two digits fails |
| `Validate.ValidateStateComplete` | src/pytigris/util.py:156-169 | In a well-formed table, a token that is a row's code, name, abbreviation or a longer code starting with the row's code resolves to that row |
| `Validate.ValidateStateOkIff` | src/pytigris/util.py:154-172 | Resolution succeeds exactly when the token denotes some row |
| `Validate.ValidateStateAnyCase` | src/pytigris/util.py:154-169 | Names and abbreviations in any case and with surrounding blanks resolve to their row's code |
| `Validate.ValidateStateIdempotent` | src/pytigris/util.py:176 | Resolving a resolved code again gives the same code, as `validate_county` relies on |
| `Validate.CountiesOf` | src/pytigris/util.py:182 | The county table filtered to one state holds exactly that state's counties |
| `Validate.MatchCountyName` | src/pytigris/util.py:192-201 | Zero, one or several counties whose lower-cased name contains the lower-cased token give NotFound, Unique (that county's code) or Ambiguous. Ambiguous lists the name of every matching county, in table order |
| `Validate.CountyByCode` | src/pytigris/util.py:184-188 | A numeric token succeeds exactly when it has 3 digits and is the code of one of the state's counties, and then the token itself is returned; otherwise it is the invalid-code error |
| `Validate.CountyByName` | src/pytigris/util.py:192-201 | A name token succeeds exactly when one county matches, with that county's code. It fails as not found when none matches, and as ambiguous, listing the matching names, when several do |
| `Validate.ValidateCounty` | src/pytigris/util.py:175-201 | A state error propagates. A numeric token succeeds exactly when it has 3 digits and is a county of the state. A name succeeds exactly when one county of the state matches it, and the result is that county's code. A name fails as ambiguous exactly when several counties match it, and the error lists every matching county name in table order. It fails as not found exactly when no county matches. Every result is a county code of that state |
| `Columns.StripVintage` | src/pytigris/util.py:114-115 | A name ending in `00` or `10` loses those two characters; any other name is kept |
| `Seqs.Replace` | src/pytigris/util.py:115 | After a rename no column carries the old name unless it equals the new one, and every column name other than the new one was already there |
| `Columns.LegacyRenames` | src/pytigris/util.py:121-131 | The four renames map COUNTY and CO to COUNTYFP, STATE and ST to STATEFP, and keep every other name |
| `Columns.Standardise` | src/pytigris/util.py:109-132 | The normalisation keeps the number of columns, and no column named COUNTY, STATE, CO or ST survives |
| `Columns.StandardisePerColumn` | src/pytigris/util.py:113-131 | On frames without name collisions each column loses exactly one vintage suffix and then takes its modern name. The condition is sufficient, not necessary: `["X10", "X"]` also comes out per column (`Columns.PerColumnWithCollision`) |
| `Columns.PerColumnWithCollision` | src/pytigris/util.py:113-131 | `["X10", "X"]` has a collision, yet the loop gives the per-column result `["X", "X"]` |
| `Columns.StandardiseEach` | src/pytigris/util.py:112-131 | Corrected normalisation: each original column loses exactly one vintage suffix, then takes its modern name |
| `Columns.StandardiseEachStripsOnce` | src/pytigris/util.py:112-115 | The corrected normalisation turns `X0010`, `X00` into `X00`, `X` |
| `Columns.StandardiseAgreesWhenNoCollisions` | src/pytigris/util.py:113-131 | The code and the corrected normalisation agree on every frame without name collisions |
| `Columns.StandardiseStripsTwice` | src/pytigris/util.py:113-115 | As written, columns `X0010`, `X00` both end up named `X` |
| `Columns.StandardiseNotIdempotent` | src/pytigris/util.py:113-115 | `X0010` becomes `X00` and a second pass makes it `X` |
| `Columns.StandardiseFixedPoint` | src/pytigris/util.py:109-132 | Names without a vintage suffix or legacy name are left unchanged |
| `Columns.StandardiseIdempotent` | src/pytigris/util.py:109-132 | A second pass changes nothing exactly when no column name left by the first pass ends in a vintage suffix; this includes frames with collisions such as `X10`, `X` |
| `Columns.StandardiseLeavesNoSuffix` | src/pytigris/util.py:113-131 | On frames without name collisions whose names carry at most one vintage suffix, one pass leaves no suffix behind |
| `Columns.StripLoopNeverLengthens` | src/pytigris/util.py:113-115 | The stripping loop never makes a column name longer |
| `Columns.StripLoopShortensSuffixed` | src/pytigris/util.py:113-115 | A column that still has its original suffixed name when the loop reaches it ends up shorter |
| `Columns.FixedPointHasNoSuffix` | src/pytigris/util.py:109-132 | A frame the normalisation leaves unchanged has no column with a vintage suffix |
| `Cache.CacheKey` | src/pytigris/util.py:73 | The cache key is a slash-free suffix of the URL that is the whole URL or follows a `/` |
| `Cache.CacheKeyUnique` | src/pytigris/util.py:73 | Exactly one suffix has those properties, so the key is the last `/` segment |
| `Cache.CacheKeyOfPath` | src/pytigris/util.py:73 | The key of `dir/file` is `file` |
| `Cache.ArchiveCacheKey` | src/pytigris/util.py:73 | An archive URL is cached under `{stem}.zip` |
| `Cache.LoadArchive` | src/pytigris/util.py:76-100 | The archive is downloaded exactly when the cache is off, lacks the key or a refresh is asked for. Otherwise the cached copy is returned. With the cache on the key afterwards holds the returned archive, and no other entry changes |
| `Cache.CacheRoundTrip` | src/pytigris/util.py:76-82 | A second cached load without refresh downloads nothing and returns the first load's archive |
| `Cache.NoCacheAlwaysDownloads` | src/pytigris/util.py:76-84 | With the cache off every load downloads |
| `Cache.RefreshReplacesCachedCopy` | src/pytigris/util.py:79-100 | A refresh downloads and overwrites the cached copy |
| `Cache.SameFileNameSharesEntry` | src/pytigris/util.py:73-80 | URLs in different directories with the same file name share a cache entry |
| `Frames.FilterIn` | src/pytigris/enum_units.py:123 | Selection keeps exactly the rows whose column value is in the set, never a null |
| `Frames.FilterInOrder` | src/pytigris/enum_units.py:123 | Selection keeps the selected rows in frame order with every duplicate. It splits over concatenation, keeps or drops each single row, and keeps every copy of a selected row |
| `Seqs.FilterAppend` | src/pytigris/util.py:182 | Masked selection of a concatenation is the concatenation of the selections, so selected rows keep their order |
| `Seqs.FilterMultiset` | src/pytigris/util.py:182 | Masked selection keeps every copy of a selected row and no copy of any other |
| `Frames.GroupOrder` | src/pytigris/enum_units.py:47 | A group lists its rows in frame order, duplicates included, so "first" in a group means first in the frame |
| `Frames.FilterInKeepsKeysDistinct` | src/pytigris/enum_units.py:122-123 | Selecting rows keeps rows with distinct keys distinct |
| `Frames.RebuildTract1990` | src/pytigris/enum_units.py:157-159 | A null TRACTSUF becomes `00`, and TRACT is TRACTBASE followed by TRACTSUF; no other column changes |
| `Frames.PadTract2000` | src/pytigris/enum_units.py:160-161 | TRACT is left-padded with `0` to six characters; no other column changes and a null stays null |
| `Frames.FirstNonNullDomain` | src/pytigris/enum_units.py:47 | `first()` has a column exactly when some row of the group has it |
| `Frames.FirstNonNullValue` | src/pytigris/enum_units.py:47 | `first()` takes each column from the first row of the group where it is not null |
| `Frames.Dissolve` | src/pytigris/enum_units.py:46-48 | The merge gives one row per distinct key, and no merged row carries geometry, AREA or PERIMETER. When no key column is aggregated, each merged row carries its group's key and no two merged rows share a key |
| `Frames.MergedRowKey` | src/pytigris/enum_units.py:162-164 | The first values of a group carry the group's key, because every row of the group has it |
| `Frames.DissolveOneRowPerKey` | src/pytigris/enum_units.py:45-48 | After the merge no two rows share a key, and every keyed input row's key is present |
| `Frames.DissolveFirstValue` | src/pytigris/enum_units.py:116-119 | Each kept column of a merged row comes from the first group row where it is not null |
| `Frames.DissolveValueFromInput` | src/pytigris/enum_units.py:162-164 | Every value of a merged row is the value of that column in some input row |
| `Frames.DissolveKeepsCounties` | src/pytigris/enum_units.py:162-164 | Merging by a key that includes COUNTYFP keeps every row's county among the input rows' counties |
| `Frames.DissolveDistinctKeys` | src/pytigris/enum_units.py:45-48 | A frame whose rows have distinct keys comes out row for row, minus the aggregated columns |
| `EnumUnits.ValidateAll` | src/pytigris/enum_units.py:101-104 | State tokens resolve one by one; the first failing token's error is raised, otherwise one code per token |
| `EnumUnits.ValidateCounties` | src/pytigris/enum_units.py:149-152 | County tokens resolve one by one; the first failing token's error is raised, otherwise the set of their codes |
| `EnumUnits.GetStates` | src/pytigris/enum_units.py:31-50 | A bad resolution fails before any URL or download. Success happens exactly for published `state` files of `us`. Outside the merged years the rows are those loaded from that URL. In the 1990/2000 cartographic years they are the loaded pieces merged by STATEFP |
| `EnumUnits.GetCounties` | src/pytigris/enum_units.py:98-125 | A bad resolution fails first, then a bad state token, then an unpublished year. A non-empty state filter is the `isin` selection of the rows whose STATEFP one of the tokens resolves to: no row added, the loaded order and duplicates kept. An empty filter keeps all rows. In the 1990/2000 cartographic years the rows are first merged by STATEFP and COUNTYFP |
| `EnumUnits.TractState` | src/pytigris/enum_units.py:137-143 | Without a state only cb after 2018 is allowed, as `us`; a given state is resolved |
| `EnumUnits.RebuildTracts` | src/pytigris/enum_units.py:156-161 | Rebuilding tract codes keeps the row count and COUNTYFP. Each 1990 row gets the TRACT built from TRACTBASE and TRACTSUF; each 2000 row gets its TRACT padded |
| `EnumUnits.SelectCounties` | src/pytigris/enum_units.py:149-154 | Succeeds exactly when every named county validates. With counties named, the result is the `isin` selection of the rows whose COUNTYFP a token resolves to, in loaded order with duplicates kept; without, all rows |
| `EnumUnits.GetTracts` | src/pytigris/enum_units.py:128-166 | The state error comes first. The call succeeds exactly when the state resolves, a tract archive is published for that state and year, and every named county validates. The request is always at 500k for the resolved state. Outside the 1990/2000 cartographic years the result is the county selection of the loaded frame, in loaded order with duplicates kept. In the 1990/2000 cartographic years the result is the selected rows with rebuilt tract codes, merged by STATEFP, COUNTYFP and TRACT |
| `EnumUnits.GetStatesOneRowPerState` | src/pytigris/enum_units.py:45-48 | With a valid resolution the 1990/2000 cartographic state request always succeeds. The merged frame has exactly one row for each STATEFP of the loaded pieces |
| `EnumUnits.GetCountiesOneRowPerCounty` | src/pytigris/enum_units.py:116-125 | The merged 1990/2000 county frame has at most one row per STATEFP and COUNTYFP, also after the state filter |
| `EnumUnits.CountyMergeCovers` | src/pytigris/enum_units.py:116-118 | Merging by STATEFP and COUNTYFP keeps a row for every loaded county, with that county's STATEFP |
| `EnumUnits.GetCountiesCoversLoaded` | src/pytigris/enum_units.py:116-125 | Every loaded county whose state was asked for (every county without a filter) has its row in the merged 1990/2000 county frame |
| `EnumUnits.TractMergeOneRowPerKey` | src/pytigris/enum_units.py:163-164 | Merging by STATEFP, COUNTYFP and TRACT leaves exactly one row for each such code triple of the input |
| `EnumUnits.GetTractsOneRowPerTract` | src/pytigris/enum_units.py:156-166 | The merged 1990/2000 tract frame has exactly one row for each STATEFP, COUNTYFP and TRACT of the selected, rebuilt rows |
| `EnumUnits.NationalTractsUrl` | src/pytigris/enum_units.py:137-145 | National cb tracts after 2018 come from `GENZ{year}/shp/cb_{year}_us_tract_500k.zip` |
| `EnumUnits.NationalTractsRejectCounties` | src/pytigris/enum_units.py:149-152 | A national tract request with counties fails, because each county is resolved against the state `us` |
| `EnumUnits.RebuildKeepsCounties` | src/pytigris/enum_units.py:156-161 | Rebuilding tract codes keeps every row's county |
| `EnumUnits.FinishTractsKeepsCounties` | src/pytigris/enum_units.py:156-164 | The rebuild and merge keep every row's county among the input rows' counties |
| `EnumUnits.GetTractsCountyFilter` | src/pytigris/enum_units.py:149-164 | Whenever counties are named and the request succeeds, every returned tract row has a COUNTYFP that one of the tokens resolves to, also in the merged 1990/2000 frames |

## Left out

- HTTP download and streaming, status codes, the progress bar, temporary
  files, reading zipped shapefiles, creating the cache directory and
  `clear_cache`. These are I/O: `load_tiger` is a parameter, and the cache is
  a map.
- `set_crs` is left out. It concerns geospatial metadata and its result is
  discarded.
- The geometry union and the floating-point AREA and PERIMETER sums of
  `dissolve` are left out. Merged rows carry only the first-value columns.
- The row order after a merge is not modelled. pandas sorts groups by key;
  the model keeps the order of first appearance. The one-row-per-key and
  first-value properties do not depend on it.
- A key column missing from the whole frame raises `KeyError` in pandas. The
  model treats it as null in every row, so no row is kept or grouped.
- A TRACTBASE, TRACTSUF or TRACT column missing from a 1990 or 2000 tract
  file raises `KeyError` in pandas. The model reads the missing column as
  null instead: TRACT becomes `nan` followed by the suffix for 1990, and
  stays absent for 2000.
- TRACTBASE is read as text. A numeric TRACTBASE column would print as
  `1234.0`; the model does not cover that.
- `functools.cache` and the CSV reading of the two tables are left out. The
  tables are parameters.
- The default year computed from today's date is left out. The year is an
  input.
- `str.contains` treats the county token as a regular expression. The model
  uses a literal substring test, so tokens with metacharacters such as
  `St.` can match differently.
- Unicode digits in `isnumeric`, and non-ASCII case mapping and white space,
  are left out. The model covers ASCII only.
- The runtime checks that a token is a string are left out, because Dafny's
  types rule out other values.
- Printed warnings and notices are left out.
- The 1990 tract rebuild assumes that the chained
  `df["TRACTSUF"].fillna('00', inplace=True)` (enum_units.py:158) fills the
  frame's own column. Under pandas copy-on-write a chained in-place call acts
  on a temporary copy, and the nulls would stay. The model does not cover
  that mode.
- `get_zctas`, `get_block_groups` and `get_school_districts` are not part of
  this model.

## Findings

| source | as written | input that shows it | evidently intended | confidence | as-written member | corrected member |
|---|---|---|---|---|---|---|
| src/pytigris/util.py:113-115 | Each snapshot name with a vintage suffix renames every current column of that name. A column renamed earlier in the loop is therefore renamed again when its new name comes up. | columns `["X0010", "X00"]` become `["X", "X"]` | Every original column loses exactly one vintage suffix, giving `["X00", "X"]` | low; not executed | `Columns.StandardiseStripsTwice` | `Columns.StandardiseEach` |

=== FILE: cache.dfy ===
/** The caching decision of `load_tiger`: the cache stores each archive under
    the last `/`-separated segment of its URL, and a cached archive is reused
    unless the caller asks for a refresh. The download and the reading of the
    shapefile are a function parameter. */
module Cache {
  import opened Text
  import Urls

  /** `url.split("/")[-1]`: the longest suffix of the URL free of `/`. */
  function CacheKey(url: string): (key: string)
    ensures '/' !in key
    ensures EndsWith(url, key)
    ensures |key| < |url| ==> url[|url| - |key| - 1] == '/'
  {
    if '/' !in url then url
    else
      var key := CacheKey(url[1..]);
      assert url[1..][|url| - 1 - |key|..] == url[|url| - |key|..];
      assert |key| == |url| - 1 ==> key == url[1..] && url[0] == '/';
      key
  }

  /** The three properties of the key determine it: there is exactly one
      slash-free suffix that is the whole URL or follows a `/`. */
  lemma {:induction false} CacheKeyUnique(url: string, key: string)
    requires '/' !in key && EndsWith(url, key)
    requires |key| < |url| ==> url[|url| - |key| - 1] == '/'
    ensures key == CacheKey(url)
  {
    if '/' !in url {
      assert forall i :: 0 <= i < |url| ==> url[i] != '/';
    } else {
      assert |key| < |url|;
      assert url[1..][|url| - 1 - |key|..] == url[|url| - |key|..];
      if |key| < |url| - 1 {
        assert url[1..][|url| - 1 - |key| - 1] == url[|url| - |key| - 1];
      }
      CacheKeyUnique(url[1..], key);
    }
  }

  /** The file of a path whose file name holds no `/` is that file name. */
  lemma CacheKeyOfPath(dir: string, file: string)
    requires '/' !in file
    ensures CacheKey(dir + "/" + file) == file
  {
    var url := dir + "/" + file;
    assert url[|url| - |file|..] == file;
    if |file| < |url| {
      assert url[|url| - |file| - 1] == '/';
    }
    CacheKeyUnique(url, file);
  }

  /** An archive built by the URL rules is cached under its own file name. */
  lemma ArchiveCacheKey(dir: string, stem: string)
    requires '/' !in stem
    ensures CacheKey(Urls.Archive(dir, stem)) == stem + ".zip"
  {
    Urls.ArchiveSpelledOut(dir, stem);
    assert Urls.Root + dir + "/" + stem + ".zip" == (Urls.Root + dir) + "/" + (stem + ".zip");
    CacheKeyOfPath(Urls.Root + dir, stem + ".zip");
  }

  /** The outcome of one load: the archive's contents, the cache afterwards,
      and whether the archive was downloaded. */
  datatype Load<A> = Load(archive: A, cache: map<string, A>, downloaded: bool)

  /** Reuse a cached archive when the cache is on, holds the key and no
      refresh is asked for. */
  predicate CacheHit<A>(url: string, refresh: bool, useCache: bool, cache: map<string, A>)
  {
    useCache && CacheKey(url) in cache && !refresh
  }

  /** The fetch-or-reuse decision of `load_tiger`. A download with the cache
      on is written to the cache under the key before it is read back. */
  function LoadArchive<A>(url: string, refresh: bool, useCache: bool, cache: map<string, A>, download: string -> A): (l: Load<A>)
    ensures l.downloaded <==> !CacheHit(url, refresh, useCache, cache)
    ensures l.downloaded ==> l.archive == download(url)
    ensures !l.downloaded ==> l.archive == cache[CacheKey(url)] && l.cache == cache
    ensures useCache ==> CacheKey(url) in l.cache && l.cache[CacheKey(url)] == l.archive
    ensures forall k :: k != CacheKey(url) ==> (k in l.cache <==> k in cache) && (k in cache ==> l.cache[k] == cache[k])
    ensures !useCache ==> l.cache == cache
  {
    var key := CacheKey(url);
    if useCache && key in cache && !refresh then Load(cache[key], cache, false)
    else
      var archive := download(url);
      Load(archive, if useCache then cache[key := archive] else cache, true)
  }

  /** Loading a URL a second time with the cache on and no refresh downloads
      nothing and gives back the archive of the first load. */
  lemma CacheRoundTrip<A>(url: string, refresh: bool, cache: map<string, A>, download: string -> A, download2: string -> A)
    ensures var first := LoadArchive(url, refresh, true, cache, download);
            var second := LoadArchive(url, false, true, first.cache, download2);
            !second.downloaded && second.archive == first.archive && second.cache == first.cache
  {
  }

  /** With the cache off every load downloads. */
  lemma NoCacheAlwaysDownloads<A>(url: string, refresh: bool, cache: map<string, A>, download: string -> A)
    ensures LoadArchive(url, refresh, false, cache, download).downloaded
  {
  }

  /** A refresh always downloads, and overwrites the cached copy. */
  lemma RefreshReplacesCachedCopy<A>(url: string, cache: map<string, A>, download: string -> A)
    ensures var l := LoadArchive(url, true, true, cache, download);
            l.downloaded && l.cache[CacheKey(url)] == download(url)
  {
  }

  /** URLs in different directories with the same file name share one cache
      entry: the second is served the first one's archive. */
  lemma SameFileNameSharesEntry<A>(dir1: string, dir2: string, file: string, cache: map<string, A>, download: string -> A)
    requires '/' !in file
    ensures var first := LoadArchive(dir1 + "/" + file, false, true, cache, download);
            var second := LoadArchive(dir2 + "/" + file, false, true, first.cache, download);
            !second.downloaded && second.archive == first.archive
  {
    CacheKeyOfPath(dir1, file);
    CacheKeyOfPath(dir2, file);
  }
}

=== FILE: columns.dfy ===
/** `standardise_df` on the column names of a loaded frame: a pass over a
    snapshot of the names that strips a trailing vintage `00` or `10`, then
    four renames of legacy code columns to their modern names. */
module Columns {
  import opened Text
  import opened Seqs

  /** `col[-2:] in {'00', '10'}`; a name shorter than two characters never qualifies. */
  predicate HasVintageSuffix(col: string)
  {
    |col| >= 2 && (col[|col| - 2..] == "00" || col[|col| - 2..] == "10")
  }

  /** `col[:-2]` for a name with a vintage suffix; every other name is kept. */
  function StripVintage(col: string): (r: string)
    ensures HasVintageSuffix(col) ==> |r| == |col| - 2 && r + col[|col| - 2..] == col
    ensures !HasVintageSuffix(col) ==> r == col
  {
    if HasVintageSuffix(col) then col[..|col| - 2] else col
  }

  /** The stripping loop from position `n` of the snapshot on: each snapshot
      name with a vintage suffix renames every current column of that name. */
  function StripLoop(cur: seq<string>, snapshot: seq<string>, n: nat): (r: seq<string>)
    requires n <= |snapshot|
    ensures |r| == |cur|
    decreases |snapshot| - n
  {
    if n == |snapshot| then cur
    else
      var col := snapshot[n];
      StripLoop(if HasVintageSuffix(col) then Replace(cur, col, StripVintage(col)) else cur, snapshot, n + 1)
  }

  /** The modern name of a legacy code column: COUNTY and CO become COUNTYFP,
      STATE and ST become STATEFP. */
  function Canonical(col: string): (r: string)
    ensures r !in {"COUNTY", "STATE", "CO", "ST"}
    ensures col !in {"COUNTY", "STATE", "CO", "ST"} ==> r == col
  {
    if col == "COUNTY" || col == "CO" then "COUNTYFP"
    else if col == "STATE" || col == "ST" then "STATEFP"
    else col
  }

  /** The four renames, in the order the source applies them. */
  function LegacyRenames(cols: seq<string>): (r: seq<string>)
    ensures |r| == |cols|
    ensures forall i :: 0 <= i < |cols| ==> r[i] == Canonical(cols[i])
  {
    var a := Replace(cols, "COUNTY", "COUNTYFP");
    var b := Replace(a, "STATE", "STATEFP");
    var c := Replace(b, "CO", "COUNTYFP");
    Replace(c, "ST", "STATEFP")
  }

  /** `standardise_df` on the column names: as many columns, in the same
      order, and none left with a legacy code name. */
  function Standardise(cols: seq<string>): (r: seq<string>)
    ensures |r| == |cols|
    ensures forall i :: 0 <= i < |r| ==> r[i] !in {"COUNTY", "STATE", "CO", "ST"}
  {
    LegacyRenames(StripLoop(cols, cols, 0))
  }

  /** No two columns share a name, and no stripped name is the name of another
      column: the frames whose renames never touch more than their own column. */
  predicate NoCollisions(cols: seq<string>)
  {
    && (forall i, j :: 0 <= i < j < |cols| ==> cols[i] != cols[j])
    && (forall i, j :: 0 <= i < |cols| && 0 <= j < |cols| && i != j ==> StripVintage(cols[i]) != cols[j])
  }

  /** The names after the first `n` snapshot entries were handled one column at a time. */
  function StrippedUpTo(cols: seq<string>, n: nat): (r: seq<string>)
    ensures |r| == |cols|
    ensures forall i :: 0 <= i < |cols| ==> r[i] == if i < n then StripVintage(cols[i]) else cols[i]
  {
    seq(|cols|, i requires 0 <= i < |cols| => if i < n then StripVintage(cols[i]) else cols[i])
  }

  /** One step of the loop on a collision-free frame renames exactly the
      column it is looking at. */
  lemma StripStep(cols: seq<string>, n: nat)
    requires NoCollisions(cols) && n < |cols|
    ensures (if HasVintageSuffix(cols[n]) then Replace(StrippedUpTo(cols, n), cols[n], StripVintage(cols[n]))
             else StrippedUpTo(cols, n)) == StrippedUpTo(cols, n + 1)
  {
  }

  lemma {:induction false} StripLoopPerColumn(cols: seq<string>, n: nat)
    requires NoCollisions(cols) && n <= |cols|
    ensures StripLoop(StrippedUpTo(cols, n), cols, n) == StrippedUpTo(cols, |cols|)
    decreases |cols| - n
  {
    if n < |cols| {
      StripStep(cols, n);
      StripLoopPerColumn(cols, n + 1);
    }
  }

  /** On a collision-free frame every column loses exactly one vintage suffix
      and then takes its modern name; no other name changes. */
  lemma StandardisePerColumn(cols: seq<string>)
    requires NoCollisions(cols)
    ensures forall i :: 0 <= i < |cols| ==> Standardise(cols)[i] == Canonical(StripVintage(cols[i]))
  {
    assert StrippedUpTo(cols, 0) == cols;
    StripLoopPerColumn(cols, 0);
  }

  /** The per-column reading of the normalisation: strip one vintage suffix
      from each original name, then apply the legacy renames. */
  function StandardiseEach(cols: seq<string>): (r: seq<string>)
    ensures |r| == |cols|
    ensures forall i :: 0 <= i < |cols| ==> r[i] == Canonical(StripVintage(cols[i]))
  {
    LegacyRenames(StrippedUpTo(cols, |cols|))
  }

  /** The per-column reading strips exactly one suffix: `X0010` becomes `X00`. */
  lemma StandardiseEachStripsOnce()
    ensures StandardiseEach(["X0010", "X00"]) == ["X00", "X"]
  {
    assert StripVintage("X0010") == "X00";
    assert StripVintage("X00") == "X";
  }

  /** The two agree on every collision-free frame. */
  lemma StandardiseAgreesWhenNoCollisions(cols: seq<string>)
    requires NoCollisions(cols)
    ensures Standardise(cols) == StandardiseEach(cols)
  {
    StandardisePerColumn(cols);
  }

  /** Collision freedom is sufficient, not necessary: `X10` strips to the name
      of the other column, yet each column still comes out as it would alone. */
  lemma PerColumnWithCollision()
    ensures !NoCollisions(["X10", "X"])
    ensures Standardise(["X10", "X"]) == StandardiseEach(["X10", "X"]) == ["X", "X"]
  {
    var cols := ["X10", "X"];
    assert StripVintage("X10") == "X";
    assert !HasVintageSuffix("X");
    var a := Replace(cols, "X10", "X");
    assert a == ["X", "X"];
    assert StripLoop(cols, cols, 0) == StripLoop(a, cols, 1);
    assert StripLoop(a, cols, 1) == StripLoop(a, cols, 2);
  }

  /** As written, a stripped name that another column already carries is
      stripped again when that column's turn comes: `X0010` loses both
      suffixes and the two columns end up with the same name. */
  lemma StandardiseStripsTwice()
    ensures Standardise(["X0010", "X00"]) == ["X", "X"]
  {
    var cols := ["X0010", "X00"];
    assert StripVintage("X0010") == "X00";
    assert StripVintage("X00") == "X";
    var a := Replace(cols, "X0010", "X00");
    assert a == ["X00", "X00"];
    var b := Replace(a, "X00", "X");
    assert b == ["X", "X"];
    assert StripLoop(cols, cols, 0) == StripLoop(a, cols, 1);
    assert StripLoop(a, cols, 1) == StripLoop(b, cols, 2);
  }

  /** The normalisation is not idempotent: a second pass strips a second suffix. */
  lemma StandardiseNotIdempotent()
    ensures Standardise(["X0010"]) == ["X00"]
    ensures Standardise(Standardise(["X0010"])) == ["X"]
  {
    assert StripVintage("X0010") == "X00";
    assert StripVintage("X00") == "X";
    StandardisePerColumn(["X0010"]);
    StandardisePerColumn(["X00"]);
  }

  /** Names with neither a vintage suffix nor a legacy code name are left as they are. */
  lemma StandardiseFixedPoint(cols: seq<string>)
    requires forall i :: 0 <= i < |cols| ==> !HasVintageSuffix(cols[i]) && cols[i] !in {"COUNTY", "STATE", "CO", "ST"}
    ensures Standardise(cols) == cols
  {
    assert forall n :: 0 <= n <= |cols| ==> StrippedUpTo(cols, n) == cols;
    StripLoopFixed(cols, 0);
  }

  lemma {:induction false} StripLoopFixed(cols: seq<string>, n: nat)
    requires n <= |cols|
    requires forall i :: 0 <= i < |cols| ==> !HasVintageSuffix(cols[i])
    ensures StripLoop(cols, cols, n) == cols
    decreases |cols| - n
  {
    if n < |cols| {
      StripLoopFixed(cols, n + 1);
    }
  }

  /** The modern names carry no vintage suffix, so renaming never adds one. */
  lemma CanonicalKeepsNoSuffix(col: string)
    requires !HasVintageSuffix(col)
    ensures !HasVintageSuffix(Canonical(col))
  {
  }

  /** When no name carries two suffixes, one pass leaves none behind. */
  lemma StandardiseLeavesNoSuffix(cols: seq<string>)
    requires NoCollisions(cols)
    requires forall i :: 0 <= i < |cols| ==> !HasVintageSuffix(StripVintage(cols[i]))
    ensures forall i :: 0 <= i < |cols| ==> !HasVintageSuffix(Standardise(cols)[i])
  {
    StandardisePerColumn(cols);
    forall i | 0 <= i < |cols|
      ensures !HasVintageSuffix(Canonical(StripVintage(cols[i])))
    {
      CanonicalKeepsNoSuffix(StripVintage(cols[i]));
    }
  }

  /** The stripping loop never lengthens a name. */
  lemma {:induction false} StripLoopNeverLengthens(cur: seq<string>, snapshot: seq<string>, n: nat)
    requires n <= |snapshot|
    ensures forall i :: 0 <= i < |cur| ==> |StripLoop(cur, snapshot, n)[i]| <= |cur[i]|
    decreases |snapshot| - n
  {
    if n < |snapshot| {
      var col := snapshot[n];
      var next := if HasVintageSuffix(col) then Replace(cur, col, StripVintage(col)) else cur;
      StripLoopNeverLengthens(next, snapshot, n + 1);
    }
  }

  /** A name that still holds its snapshot name with a vintage suffix when
      the loop reaches it comes out shorter. */
  lemma {:induction false} StripLoopShortensSuffixed(cur: seq<string>, snapshot: seq<string>, n: nat, i: nat)
    requires n <= i < |snapshot| && i < |cur|
    requires cur[i] == snapshot[i] && HasVintageSuffix(snapshot[i])
    ensures |StripLoop(cur, snapshot, n)[i]| < |cur[i]|
    decreases |snapshot| - n
  {
    var col := snapshot[n];
    var next := if HasVintageSuffix(col) then Replace(cur, col, StripVintage(col)) else cur;
    if next[i] == cur[i] && n < i {
      StripLoopShortensSuffixed(next, snapshot, n + 1, i);
    } else {
      assert |next[i]| < |cur[i]|;
      StripLoopNeverLengthens(next, snapshot, n + 1);
    }
  }

  /** A frame that normalises to itself carries no vintage suffix. */
  lemma FixedPointHasNoSuffix(cols: seq<string>)
    requires Standardise(cols) == cols
    ensures forall i :: 0 <= i < |cols| ==> !HasVintageSuffix(cols[i])
  {
    forall i | 0 <= i < |cols|
      ensures !HasVintageSuffix(cols[i])
    {
      if HasVintageSuffix(cols[i]) {
        StripLoopShortensSuffixed(cols, cols, 0, i);
        assert false;
      }
    }
  }

  /** Normalising a second time changes nothing exactly when the first pass
      left no vintage suffix behind (`StandardiseLeavesNoSuffix` gives a
      condition on the input names for that). */
  lemma StandardiseIdempotent(cols: seq<string>)
    ensures Standardise(Standardise(cols)) == Standardise(cols) <==>
              forall i :: 0 <= i < |cols| ==> !HasVintageSuffix(Standardise(cols)[i])
  {
    if forall i :: 0 <= i < |cols| ==> !HasVintageSuffix(Standardise(cols)[i]) {
      StandardiseFixedPoint(Standardise(cols));
    }
    if Standardise(Standardise(cols)) == Standardise(cols) {
      FixedPointHasNoSuffix(Standardise(cols));
    }
  }
}

=== FILE: constants.dfy ===
/** The library's enumerations and its table of census summary-level codes. */
module Constants {
  import opened Text
  import opened Results
  import opened Seqs

  /** The cartographic-boundary resolutions: 1:500,000, 1:5,000,000 and 1:20,000,000. */
  datatype Resolution = R500K | R5M | R20M {
    function Value(): string
    {
      match this
      case R500K => "500k"
      case R5M => "5m"
      case R20M => "20m"
    }
  }

  /** The membership test `get_states` and `get_counties` apply to the resolution string. */
  predicate ValidResolution(s: string)
  {
    s == "500k" || s == "5m" || s == "20m"
  }

  /** `Resolution(s)`: look an enumeration member up by its value. */
  function ParseResolution(s: string): (r: Option<Resolution>)
    ensures r.Some? ==> r.value.Value() == s
    ensures r.None? ==> forall m: Resolution :: m.Value() != s
  {
    if s == "500k" then Some(R500K)
    else if s == "5m" then Some(R5M)
    else if s == "20m" then Some(R20M)
    else None
  }

  /** The strings the entry points accept are exactly the values of `Resolution`. */
  lemma ResolutionValuesAccepted(s: string)
    ensures ValidResolution(s) <==> ParseResolution(s).Some?
    ensures forall m: Resolution :: ParseResolution(m.Value()) == Some(m)
  {
  }

  /** The three kinds of school district. */
  datatype SchoolDistrict = Unified | Elementary | Secondary {
    /** The member's Python name. */
    function Name(): string
    {
      match this
      case Unified => "UNIFIED"
      case Elementary => "ELEMENTARY"
      case Secondary => "SECONDARY"
    }

    /** The member's value: the TIGER/Line type token. */
    function Value(): string
    {
      match this
      case Unified => "unsd"
      case Elementary => "elsd"
      case Secondary => "scsd"
    }
  }

  /** The members in declaration order, the order `for member in cls` visits them. */
  const SchoolDistricts: seq<SchoolDistrict> := [Unified, Elementary, Secondary]

  lemma AllSchoolDistricts()
    ensures forall m: SchoolDistrict :: m in SchoolDistricts
  {
    forall m: SchoolDistrict
      ensures m in SchoolDistricts
    {
      match m
      case Unified => assert SchoolDistricts[0] == m;
      case Elementary => assert SchoolDistricts[1] == m;
      case Secondary => assert SchoolDistricts[2] == m;
    }
  }

  /** A member whose name is the upper-cased token or whose value is the lower-cased token. */
  predicate MatchesSchoolDistrict(m: SchoolDistrict, token: string)
  {
    m.Name() == ToUpper(token) || m.Value() == ToLower(token)
  }

  /** `SchoolDistrict._missing_`: the fallback once the exact value lookup has failed. */
  function MissingSchoolDistrict(name: string): (r: Option<SchoolDistrict>)
    ensures r.Some? ==> MatchesSchoolDistrict(r.value, name)
    ensures r.None? ==> forall m: SchoolDistrict :: !MatchesSchoolDistrict(m, name)
  {
    var upper := ToUpper(name);
    var lower := ToLower(upper);
    LowerOfUpper(name);
    match FirstIndex(SchoolDistricts, (m: SchoolDistrict) => m.Name() == upper || m.Value() == lower)
    case Some(i) => Some(SchoolDistricts[i])
    case None =>
      AllSchoolDistricts();
      None
  }

  /** `SchoolDistrict(token)`: the exact value first, then the fallback; `None` is a ValueError. */
  function SchoolDistrictOf(token: string): (r: Option<SchoolDistrict>)
    ensures r.Some? ==> MatchesSchoolDistrict(r.value, token)
    ensures r.None? ==> forall m: SchoolDistrict :: !MatchesSchoolDistrict(m, token)
  {
    if token == "unsd" then
      assert ToLower(token) == token;
      Some(Unified)
    else if token == "elsd" then
      assert ToLower(token) == token;
      Some(Elementary)
    else if token == "scsd" then
      assert ToLower(token) == token;
      Some(Secondary)
    else MissingSchoolDistrict(token)
  }

  /** At most one member matches any token: names and values are pairwise distinct
      even after case folding. */
  lemma {:induction false} SchoolDistrictMatchUnique(m: SchoolDistrict, n: SchoolDistrict, token: string)
    requires MatchesSchoolDistrict(m, token) && MatchesSchoolDistrict(n, token)
    ensures m == n
  {
    LowerOfUpper(token);
    UpperOfLower(token);
    if m.Name() == ToUpper(token) {
      assert ToLower(m.Name()) == ToLower(token);
    } else {
      assert ToUpper(m.Value()) == ToUpper(token);
    }
  }

  /** The fallback finds a member from its name in any letter case. */
  lemma SchoolDistrictByName(m: SchoolDistrict, token: string)
    requires ToUpper(token) == m.Name()
    ensures MissingSchoolDistrict(token) == Some(m)
  {
    var r := MissingSchoolDistrict(token);
    assert MatchesSchoolDistrict(m, token);
    SchoolDistrictMatchUnique(r.value, m, token);
  }

  /** The fallback finds a member from its value in any letter case. */
  lemma SchoolDistrictByValue(m: SchoolDistrict, token: string)
    requires ToLower(token) == m.Value()
    ensures MissingSchoolDistrict(token) == Some(m)
  {
    var r := MissingSchoolDistrict(token);
    assert MatchesSchoolDistrict(m, token);
    SchoolDistrictMatchUnique(r.value, m, token);
  }

  lemma SchoolDistrictExamples()
    ensures MissingSchoolDistrict("unified") == Some(Unified)
    ensures MissingSchoolDistrict("UNSD") == Some(Unified)
    ensures MissingSchoolDistrict("Elementary") == Some(Elementary)
    ensures MissingSchoolDistrict("district") == None
  {
    SchoolDistrictByName(Unified, "unified");
    SchoolDistrictByValue(Unified, "UNSD");
    SchoolDistrictByName(Elementary, "Elementary");
  }

  /** `SUMMARY_LEVEL_CODES`: census summary-level code of each geography. */
  const SummaryLevelCodes: map<string, string> := map[
    "region" := "020",
    "division" := "030",
    "state" := "040",
    "county" := "050",
    "tract" := "140",
    "block" := "150",
    "bg" := "150",
    "place" := "160",
    "elsd" := "950",
    "scsd" := "960",
    "unsd" := "970"
  ]

  function SummaryLevelCode(level: string): (r: Option<string>)
    ensures r.Some? ==> |r.value| == 3 && IsNumeric(r.value)
    ensures r.Some? <==> level in {"region", "division", "state", "county", "tract", "block", "bg", "place", "elsd", "scsd", "unsd"}
  {
    if level in SummaryLevelCodes then Some(SummaryLevelCodes[level]) else None
  }

  /** A block and its block group share the summary-level code 150. */
  lemma BlockAndBlockGroupShareCode()
    ensures SummaryLevelCode("block") == SummaryLevelCode("bg") == Some("150")
  {
  }
}

=== FILE: enum_units.dfy ===
/** The entry points `get_states`, `get_counties` and `get_tracts`: request
    gating, the URL they ask for, and the row work on the loaded frame.
    `load` stands for `load_tiger` (download or cache, read, normalise): any
    function from a URL to a frame. The year is an input; the default year
    taken from the clock is not modelled. */
module EnumUnits {
  import opened Text
  import opened Results
  import opened Seqs
  import opened Tables
  import opened Validate
  import opened Frames
  import Constants
  import Urls

  /** An argument that is a single token, a list of tokens, or `None`. */
  datatype Selector = Absent | One(token: string) | Many(tokens: seq<string>) {
    /** Python truthiness: `None`, "" and the empty list are false. */
    predicate Truthy()
    {
      match this
      case Absent => false
      case One(token) => |token| > 0
      case Many(tokens) => |tokens| > 0
    }

    /** A single string is wrapped into a one-element list. */
    function Tokens(): seq<string>
    {
      match this
      case Absent => []
      case One(token) => [token]
      case Many(tokens) => tokens
    }
  }

  /** `[validate_state(s) for s in states]`: the first failing token's error,
      or one code per token. */
  function ValidateAll(t: StateTable, tokens: seq<string>): (r: Result<seq<string>>)
    requires LowerCaseStateTable(t)
    ensures r.Ok? <==> forall i :: 0 <= i < |tokens| ==> ValidateState(t, tokens[i]).Ok?
    ensures r.Ok? ==> |r.value| == |tokens| && forall i :: 0 <= i < |tokens| ==> ValidateState(t, tokens[i]) == Ok(r.value[i])
    ensures r.Err? ==> exists i :: 0 <= i < |tokens| && ValidateState(t, tokens[i]) == Err(r.error)
                                   && forall j :: 0 <= j < i ==> ValidateState(t, tokens[j]).Ok?
  {
    MapResult(tokens, (s: string) requires LowerCaseStateTable(t) => ValidateState(t, s))
  }

  function CodeSet(codes: seq<string>): (r: set<string>)
    ensures forall c :: c in r <==> exists i :: 0 <= i < |codes| && codes[i] == c
  {
    set c | c in codes
  }

  /** `{validate_county(state, c) for c in counties}`: the first failing
      token's error, or the set of county codes. */
  function ValidateCounties(t: StateTable, ct: CountyTable, state: string, tokens: seq<string>): (r: Result<set<string>>)
    requires LowerCaseStateTable(t)
    ensures r.Ok? <==> forall i :: 0 <= i < |tokens| ==> ValidateCounty(t, ct, state, tokens[i]).Ok?
    ensures r.Ok? ==> forall c :: c in r.value <==> exists i :: 0 <= i < |tokens| && ValidateCounty(t, ct, state, tokens[i]) == Ok(c)
    ensures r.Err? ==> exists i :: 0 <= i < |tokens| && ValidateCounty(t, ct, state, tokens[i]) == Err(r.error)
                                   && forall j :: 0 <= j < i ==> ValidateCounty(t, ct, state, tokens[j]).Ok?
  {
    match MapResult(tokens, (s: string) requires LowerCaseStateTable(t) => ValidateCounty(t, ct, state, s))
    case Err(e) => Err(e)
    case Ok(codes) => Ok(CodeSet(codes))
  }

  /** The 1990 and 2000 cartographic files come in pieces that the entry
      points merge by key. */
  predicate Legacy(year: int, cb: bool)
  {
    cb && (year == 1990 || year == 2000)
  }

  /** The loaded frame, merged by `keys` for the legacy cartographic years. */
  function MergeLegacy(rows: Frame, year: int, cb: bool, keys: seq<string>): Frame
  {
    if Legacy(year, cb) then Dissolve(rows, keys) else rows
  }

  /** `get_states`. */
  function GetStates(t: StateTable, cb: bool, resolution: string, year: int, load: string -> Frame): (r: Result<Frame>)
    ensures !Constants.ValidResolution(resolution) ==> r == Err(InvalidResolution(resolution))
    ensures r.Ok? <==> Constants.ValidResolution(resolution) && Urls.Published(t, year, "state", cb, "us")
    ensures r.Ok? ==> Urls.ConstructUrl(t, year, "state", cb, resolution, "us").Ok?
    ensures r.Ok? && !Legacy(year, cb) ==> r.value == load(Urls.ConstructUrl(t, year, "state", cb, resolution, "us").value)
    ensures r.Ok? && Legacy(year, cb) ==>
              r.value == Dissolve(load(Urls.ConstructUrl(t, year, "state", cb, resolution, "us").value), ["STATEFP"])
  {
    if !Constants.ValidResolution(resolution) then Err(InvalidResolution(resolution))
    else
      var url :- Urls.ConstructUrl(t, year, "state", cb, resolution, "us");
      Ok(MergeLegacy(load(url), year, cb, ["STATEFP"]))
  }

  /** The codes the tokens resolve to are exactly the codes some token
      resolves to. */
  lemma ResolvedCodes(t: StateTable, tokens: seq<string>, codes: seq<string>)
    requires LowerCaseStateTable(t) && ValidateAll(t, tokens) == Ok(codes)
    ensures forall c :: c in CodeSet(codes) <==> exists i :: 0 <= i < |tokens| && ValidateState(t, tokens[i]) == Ok(c)
  {
    forall c | c in CodeSet(codes)
      ensures exists i :: 0 <= i < |tokens| && ValidateState(t, tokens[i]) == Ok(c)
    {
      var i :| 0 <= i < |codes| && codes[i] == c;
    }
  }

  /** `get_counties`. State tokens are resolved before the URL is built, so a
      bad token is reported before a bad year. */
  function GetCounties(t: StateTable, states: Selector, cb: bool, resolution: string, year: int, load: string -> Frame): (r: Result<Frame>)
    requires LowerCaseStateTable(t)
    ensures !Constants.ValidResolution(resolution) ==> r == Err(InvalidResolution(resolution))
    ensures Constants.ValidResolution(resolution) && states.Truthy() && ValidateAll(t, states.Tokens()).Err? ==>
              r == Err(ValidateAll(t, states.Tokens()).error)
    ensures r.Ok? <==>
              && Constants.ValidResolution(resolution)
              && (states.Truthy() ==> forall i :: 0 <= i < |states.Tokens()| ==> ValidateState(t, states.Tokens()[i]).Ok?)
              && Urls.Published(t, year, "county", cb, "us")
    ensures r.Ok? ==> Urls.ConstructUrl(t, year, "county", cb, resolution, "us").Ok?
    ensures r.Ok? && !states.Truthy() && !Legacy(year, cb) ==>
              r.value == load(Urls.ConstructUrl(t, year, "county", cb, resolution, "us").value)
    ensures r.Ok? && !states.Truthy() && Legacy(year, cb) ==>
              r.value == Dissolve(load(Urls.ConstructUrl(t, year, "county", cb, resolution, "us").value), ["STATEFP", "COUNTYFP"])
    ensures r.Ok? && states.Truthy() ==>
              var merged := MergeLegacy(load(Urls.ConstructUrl(t, year, "county", cb, resolution, "us").value), year, cb, ["STATEFP", "COUNTYFP"]);
              forall row :: row in r.value <==>
                row in merged && "STATEFP" in row
                && exists i :: 0 <= i < |states.Tokens()| && ValidateState(t, states.Tokens()[i]) == Ok(row["STATEFP"])
    ensures r.Ok? && states.Truthy() ==>
              var merged := MergeLegacy(load(Urls.ConstructUrl(t, year, "county", cb, resolution, "us").value), year, cb, ["STATEFP", "COUNTYFP"]);
              r.value == FilterIn(merged, "STATEFP", CodeSet(ValidateAll(t, states.Tokens()).value))
  {
    if !Constants.ValidResolution(resolution) then Err(InvalidResolution(resolution))
    else
      var codes :- if states.Truthy() then ValidateAll(t, states.Tokens()) else Ok([]);
      var url :- Urls.ConstructUrl(t, year, "county", cb, resolution, "us");
      var merged := MergeLegacy(load(url), year, cb, ["STATEFP", "COUNTYFP"]);
      if states.Truthy() then
        ResolvedCodes(t, states.Tokens(), codes);
        Ok(FilterIn(merged, "STATEFP", CodeSet(codes)))
      else
        Ok(merged)
  }

  /** The state a tract request is for: `us` for a national request, which
      only the cartographic files after 2018 offer, else the resolved token. */
  function TractState(t: StateTable, state: Option<string>, year: int, cb: bool): (r: Result<string>)
    requires LowerCaseStateTable(t)
    ensures state.None? ==> (r.Ok? <==> year > 2018 && cb)
    ensures state.None? && r.Ok? ==> r.value == "us"
    ensures state.None? && r.Err? ==> r.error == NationalTractsUnavailable
    ensures state.Some? ==> r == ValidateState(t, state.value)
  {
    match state
    case None => if year > 2018 && cb then Ok("us") else Err(NationalTractsUnavailable)
    case Some(s) => ValidateState(t, s)
  }

  /** The rebuilt tract code of the legacy years: concatenation for 1990,
      padding for 2000. */
  function RebuildTracts(rows: Frame, year: int): (r: Frame)
    ensures |r| == |rows|
    ensures forall i :: 0 <= i < |rows| ==> ("COUNTYFP" in r[i] <==> "COUNTYFP" in rows[i])
    ensures forall i :: 0 <= i < |rows| && "COUNTYFP" in rows[i] ==> r[i]["COUNTYFP"] == rows[i]["COUNTYFP"]
    ensures forall i :: 0 <= i < |rows| ==> ("TRACT" in r[i] <==> year == 1990 || "TRACT" in rows[i])
    ensures year == 1990 ==> forall i :: 0 <= i < |rows| ==> r[i] == RebuildTract1990(rows[i])
    ensures year != 1990 ==> forall i :: 0 <= i < |rows| ==> r[i] == PadTract2000(rows[i])
  {
    if year == 1990 then MapRows(rows, RebuildTract1990) else MapRows(rows, PadTract2000)
  }

  /** For the legacy cartographic years, the rebuilt tract codes and the
      merge by state, county and tract; other years keep the rows. */
  function FinishTracts(rows: Frame, year: int, cb: bool): Frame
  {
    if Legacy(year, cb) then Dissolve(RebuildTracts(rows, year), ["STATEFP", "COUNTYFP", "TRACT"]) else rows
  }

  /** The rows of the requested counties, or all rows when none are named. */
  function SelectCounties(t: StateTable, ct: CountyTable, st: string, counties: Selector, rows: Frame): (r: Result<Frame>)
    requires LowerCaseStateTable(t)
    ensures r.Ok? <==> counties.Absent? || forall i :: 0 <= i < |counties.Tokens()| ==> ValidateCounty(t, ct, st, counties.Tokens()[i]).Ok?
    ensures r.Ok? && counties.Absent? ==> r.value == rows
    ensures r.Ok? && !counties.Absent? ==>
              forall row :: row in r.value <==>
                row in rows && "COUNTYFP" in row
                && exists i :: 0 <= i < |counties.Tokens()| && ValidateCounty(t, ct, st, counties.Tokens()[i]) == Ok(row["COUNTYFP"])
    ensures r.Ok? && !counties.Absent? ==>
              r.value == FilterIn(rows, "COUNTYFP", ValidateCounties(t, ct, st, counties.Tokens()).value)
  {
    if counties.Absent? then Ok(rows)
    else
      var codes :- ValidateCounties(t, ct, st, counties.Tokens());
      Ok(FilterIn(rows, "COUNTYFP", codes))
  }

  /** `get_tracts`: always at resolution 500k, for the state `TractState`
      gives; counties are selected before the legacy tract codes are rebuilt
      and the pieces merged. */
  function GetTracts(t: StateTable, ct: CountyTable, state: Option<string>, counties: Selector, year: int, cb: bool, load: string -> Frame): (r: Result<Frame>)
    requires LowerCaseStateTable(t)
    ensures TractState(t, state, year, cb).Err? ==> r == Err(TractState(t, state, year, cb).error)
    ensures r.Ok? <==>
              && TractState(t, state, year, cb).Ok?
              && Urls.Published(t, year, "tract", cb, TractState(t, state, year, cb).value)
              && (counties.Absent? || forall i :: 0 <= i < |counties.Tokens()| ==>
                    ValidateCounty(t, ct, TractState(t, state, year, cb).value, counties.Tokens()[i]).Ok?)
    ensures r.Ok? && !Legacy(year, cb) ==>
              var st := TractState(t, state, year, cb).value;
              r.value == SelectCounties(t, ct, st, counties, load(Urls.ConstructUrl(t, year, "tract", cb, "500k", st).value)).value
    ensures r.Ok? ==> TractState(t, state, year, cb).Ok?
                      && Urls.ConstructUrl(t, year, "tract", cb, "500k", TractState(t, state, year, cb).value).Ok?
    ensures r.Ok? && counties.Absent? && !Legacy(year, cb) ==>
              r.value == load(Urls.ConstructUrl(t, year, "tract", cb, "500k", TractState(t, state, year, cb).value).value)
    ensures r.Ok? && !counties.Absent? && !Legacy(year, cb) ==>
              var st := TractState(t, state, year, cb).value;
              forall row :: row in r.value <==>
                row in load(Urls.ConstructUrl(t, year, "tract", cb, "500k", st).value) && "COUNTYFP" in row
                && exists i :: 0 <= i < |counties.Tokens()| && ValidateCounty(t, ct, st, counties.Tokens()[i]) == Ok(row["COUNTYFP"])
    ensures r.Ok? ==>
              var st := TractState(t, state, year, cb).value;
              SelectCounties(t, ct, st, counties, load(Urls.ConstructUrl(t, year, "tract", cb, "500k", st).value)).Ok?
    ensures r.Ok? && Legacy(year, cb) ==>
              var st := TractState(t, state, year, cb).value;
              var selected := SelectCounties(t, ct, st, counties, load(Urls.ConstructUrl(t, year, "tract", cb, "500k", st).value)).value;
              r.value == Dissolve(RebuildTracts(selected, year), ["STATEFP", "COUNTYFP", "TRACT"])
  {
    var st :- TractState(t, state, year, cb);
    var url :- Urls.ConstructUrl(t, year, "tract", cb, "500k", st);
    var rows :- SelectCounties(t, ct, st, counties, load(url));
    Ok(FinishTracts(rows, year, cb))
  }

  /** The merged 1990 and 2000 state files have exactly one row per state
      code of the loaded pieces: no two rows share a code, and every code
      the pieces carry has its row. */
  lemma GetStatesOneRowPerState(t: StateTable, cb: bool, resolution: string, year: int, load: string -> Frame)
    requires Constants.ValidResolution(resolution) && Legacy(year, cb)
    ensures GetStates(t, cb, resolution, year, load).Ok?
    ensures var r := GetStates(t, cb, resolution, year, load).value;
            forall i, j :: 0 <= i < j < |r| ==> KeyOf(r[i], ["STATEFP"]) != KeyOf(r[j], ["STATEFP"])
    ensures var r := GetStates(t, cb, resolution, year, load).value;
            var loaded := load(Urls.ConstructUrl(t, year, "state", cb, resolution, "us").value);
            forall row :: row in loaded && KeyOf(row, ["STATEFP"]).Some? ==>
              exists i :: 0 <= i < |r| && KeyOf(r[i], ["STATEFP"]) == KeyOf(row, ["STATEFP"])
  {
    assert Urls.Published(t, year, "state", cb, "us");
    var url := Urls.ConstructUrl(t, year, "state", cb, resolution, "us").value;
    DissolveOneRowPerKey(load(url), ["STATEFP"]);
  }

  /** The merged 1990 and 2000 county files have one row per state and county
      code, and the state filter keeps them apart. */
  lemma GetCountiesOneRowPerCounty(t: StateTable, states: Selector, cb: bool, resolution: string, year: int, load: string -> Frame)
    requires LowerCaseStateTable(t)
    requires GetCounties(t, states, cb, resolution, year, load).Ok? && Legacy(year, cb)
    ensures var r := GetCounties(t, states, cb, resolution, year, load).value;
            forall i, j :: 0 <= i < j < |r| ==> KeyOf(r[i], ["STATEFP", "COUNTYFP"]) != KeyOf(r[j], ["STATEFP", "COUNTYFP"])
  {
    var keys := ["STATEFP", "COUNTYFP"];
    var url := Urls.ConstructUrl(t, year, "county", cb, resolution, "us").value;
    var merged := Dissolve(load(url), keys);
    CountyMergeDistinct(load(url));
    GetCountiesLegacyFrame(t, states, cb, resolution, year, load);
    if states.Truthy() {
      var codes := ValidateAll(t, states.Tokens()).value;
      FilterInKeepsKeysDistinct(merged, "STATEFP", CodeSet(codes), keys);
    }
  }

  /** The 1990 and 2000 cartographic county frame: the merged pieces, kept
      whole or filtered by the resolved state codes. */
  lemma GetCountiesLegacyFrame(t: StateTable, states: Selector, cb: bool, resolution: string, year: int, load: string -> Frame)
    requires LowerCaseStateTable(t)
    requires GetCounties(t, states, cb, resolution, year, load).Ok? && Legacy(year, cb)
    ensures var merged := Dissolve(load(Urls.ConstructUrl(t, year, "county", cb, resolution, "us").value), ["STATEFP", "COUNTYFP"]);
            GetCounties(t, states, cb, resolution, year, load).value ==
              if states.Truthy() then FilterIn(merged, "STATEFP", CodeSet(ValidateAll(t, states.Tokens()).value)) else merged
  {
  }

  /** Merging by state and county code leaves no two rows with the same pair. */
  lemma CountyMergeDistinct(rows: Frame)
    ensures var r := Dissolve(rows, ["STATEFP", "COUNTYFP"]);
            forall i, j :: 0 <= i < j < |r| ==> KeyOf(r[i], ["STATEFP", "COUNTYFP"]) != KeyOf(r[j], ["STATEFP", "COUNTYFP"])
  {
    DissolveOneRowPerKey(rows, ["STATEFP", "COUNTYFP"]);
  }

  /** Merging by state and county code leaves a row for every keyed input
      row's code pair, with that row's state code. */
  lemma CountyMergeCovers(rows: Frame, row: Row)
    requires row in rows && KeyOf(row, ["STATEFP", "COUNTYFP"]).Some?
    ensures "STATEFP" in row
    ensures var r := Dissolve(rows, ["STATEFP", "COUNTYFP"]);
            exists i :: 0 <= i < |r| && KeyOf(r[i], ["STATEFP", "COUNTYFP"]) == KeyOf(row, ["STATEFP", "COUNTYFP"])
                        && "STATEFP" in r[i] && r[i]["STATEFP"] == row["STATEFP"]
  {
    var keys := ["STATEFP", "COUNTYFP"];
    var r := Dissolve(rows, keys);
    CountyMergeComplete(rows);
    var i :| 0 <= i < |r| && KeyOf(r[i], keys) == KeyOf(row, keys);
    SameKeySameFirst(r[i], row, keys);
  }

  /** Every keyed input row's state and county pair has its merged row. */
  lemma CountyMergeComplete(rows: Frame)
    ensures var r := Dissolve(rows, ["STATEFP", "COUNTYFP"]);
            forall row :: row in rows && KeyOf(row, ["STATEFP", "COUNTYFP"]).Some? ==>
              exists i :: 0 <= i < |r| && KeyOf(r[i], ["STATEFP", "COUNTYFP"]) == KeyOf(row, ["STATEFP", "COUNTYFP"])
  {
    DissolveOneRowPerKey(rows, ["STATEFP", "COUNTYFP"]);
  }

  /** In the 1990 and 2000 cartographic years, every merged county row whose
      state was asked for (or every merged row, without a filter) is
      returned. */
  lemma GetCountiesKeepsMerged(t: StateTable, states: Selector, cb: bool, resolution: string, year: int, load: string -> Frame, x: Row)
    requires LowerCaseStateTable(t)
    requires GetCounties(t, states, cb, resolution, year, load).Ok? && Legacy(year, cb)
    requires x in Dissolve(load(Urls.ConstructUrl(t, year, "county", cb, resolution, "us").value), ["STATEFP", "COUNTYFP"])
    requires "STATEFP" in x
    requires states.Truthy() ==> exists k :: 0 <= k < |states.Tokens()| && ValidateState(t, states.Tokens()[k]) == Ok(x["STATEFP"])
    ensures x in GetCounties(t, states, cb, resolution, year, load).value
  {
  }

  /** Every county of the merged 1990 and 2000 county files whose state was
      asked for (or every county, without a state filter) keeps its row. */
  lemma GetCountiesCoversLoaded(t: StateTable, states: Selector, cb: bool, resolution: string, year: int, load: string -> Frame, row: Row)
    requires LowerCaseStateTable(t)
    requires GetCounties(t, states, cb, resolution, year, load).Ok? && Legacy(year, cb)
    requires row in load(Urls.ConstructUrl(t, year, "county", cb, resolution, "us").value)
    requires KeyOf(row, ["STATEFP", "COUNTYFP"]).Some? && "STATEFP" in row
    requires states.Truthy() ==> exists k :: 0 <= k < |states.Tokens()| && ValidateState(t, states.Tokens()[k]) == Ok(row["STATEFP"])
    ensures var r := GetCounties(t, states, cb, resolution, year, load).value;
            exists i :: 0 <= i < |r| && KeyOf(r[i], ["STATEFP", "COUNTYFP"]) == KeyOf(row, ["STATEFP", "COUNTYFP"])
  {
    var keys := ["STATEFP", "COUNTYFP"];
    var loaded := load(Urls.ConstructUrl(t, year, "county", cb, resolution, "us").value);
    var merged := Dissolve(loaded, keys);
    CountyMergeCovers(loaded, row);
    var m :| 0 <= m < |merged| && KeyOf(merged[m], keys) == KeyOf(row, keys)
             && "STATEFP" in merged[m] && merged[m]["STATEFP"] == row["STATEFP"];
    GetCountiesKeepsMerged(t, states, cb, resolution, year, load, merged[m]);
    var r := GetCounties(t, states, cb, resolution, year, load).value;
    var i :| 0 <= i < |r| && r[i] == merged[m];
  }

  /** Merging by state, county and tract code leaves one row per code
      triple, and every keyed input row's triple has its row. */
  lemma TractMergeOneRowPerKey(rows: Frame)
    ensures var r := Dissolve(rows, ["STATEFP", "COUNTYFP", "TRACT"]);
            forall i, j :: 0 <= i < j < |r| ==>
              KeyOf(r[i], ["STATEFP", "COUNTYFP", "TRACT"]) != KeyOf(r[j], ["STATEFP", "COUNTYFP", "TRACT"])
    ensures var r := Dissolve(rows, ["STATEFP", "COUNTYFP", "TRACT"]);
            forall row :: row in rows && KeyOf(row, ["STATEFP", "COUNTYFP", "TRACT"]).Some? ==>
              exists i :: 0 <= i < |r| && KeyOf(r[i], ["STATEFP", "COUNTYFP", "TRACT"]) == KeyOf(row, ["STATEFP", "COUNTYFP", "TRACT"])
  {
    DissolveOneRowPerKey(rows, ["STATEFP", "COUNTYFP", "TRACT"]);
  }

  /** The merged 1990 and 2000 tract files have one row per state, county and
      tract code, and every keyed row of the selected, rebuilt pieces has its
      row. */
  lemma GetTractsOneRowPerTract(t: StateTable, ct: CountyTable, state: Option<string>, counties: Selector, year: int, cb: bool, load: string -> Frame)
    requires LowerCaseStateTable(t) && Legacy(year, cb)
    ensures var r := GetTracts(t, ct, state, counties, year, cb, load);
            r.Ok? ==> forall i, j :: 0 <= i < j < |r.value| ==>
              KeyOf(r.value[i], ["STATEFP", "COUNTYFP", "TRACT"]) != KeyOf(r.value[j], ["STATEFP", "COUNTYFP", "TRACT"])
    ensures var r := GetTracts(t, ct, state, counties, year, cb, load);
            r.Ok? ==>
              var st := TractState(t, state, year, cb).value;
              var selected := SelectCounties(t, ct, st, counties, load(Urls.ConstructUrl(t, year, "tract", cb, "500k", st).value)).value;
              forall row :: row in RebuildTracts(selected, year) && KeyOf(row, ["STATEFP", "COUNTYFP", "TRACT"]).Some? ==>
                exists i :: 0 <= i < |r.value| && KeyOf(r.value[i], ["STATEFP", "COUNTYFP", "TRACT"]) == KeyOf(row, ["STATEFP", "COUNTYFP", "TRACT"])
  {
    var r := GetTracts(t, ct, state, counties, year, cb, load);
    if r.Ok? {
      var st := TractState(t, state, year, cb).value;
      var selected := SelectCounties(t, ct, st, counties, load(Urls.ConstructUrl(t, year, "tract", cb, "500k", st).value)).value;
      var rebuilt := RebuildTracts(selected, year);
      assert r.value == Dissolve(rebuilt, ["STATEFP", "COUNTYFP", "TRACT"]);
      TractMergeOneRowPerKey(rebuilt);
    }
  }

  /** Without a state, the cartographic tracts after 2018 come from the
      national file `GENZ{year}/shp/cb_{year}_us_tract_500k.zip`. */
  lemma NationalTractsUrl(t: StateTable, ct: CountyTable, year: int, load: string -> Frame)
    requires LowerCaseStateTable(t) && year > 2018
    ensures var y := NatToString(year);
            GetTracts(t, ct, None, Absent, year, true, load)
              == Ok(load(Urls.Archive("GENZ" + y + "/shp", "cb_" + y + "_us_tract_500k")))
  {
    var y := NatToString(year);
    var url := Urls.Archive("GENZ" + y + "/shp", "cb_" + y + "_us_tract_500k");
    NationalTractArchive(t, year);
    assert TractState(t, None, year, true) == Ok("us");
    assert SelectCounties(t, ct, "us", Absent, load(url)) == Ok(load(url));
    assert FinishTracts(load(url), year, true) == load(url);
  }

  /** The archive of the national cartographic tract file. */
  lemma NationalTractArchive(t: StateTable, year: int)
    requires year > 2018
    ensures var y := NatToString(year);
            Urls.ConstructUrl(t, year, "tract", true, "500k", "us") == Ok(Urls.Archive("GENZ" + y + "/shp", "cb_" + y + "_us_tract_500k"))
  {
    var y := NatToString(year);
    Urls.TractCases();
    Urls.CbModernUrl(t, year, "tract", "500k", "us");
    NationalTractName(y);
  }

  lemma NationalTractName(y: string)
    ensures "cb_" + y + "_" + "us" + "_" + "tract" + "_" + "500k" == "cb_" + y + "_us_tract_500k"
  {
  }

  /** A national tract request cannot be narrowed to counties: every county
      token is resolved against the state `us`, which no row of the state
      table denotes. */
  lemma NationalTractsRejectCounties(t: StateTable, ct: CountyTable, counties: Selector, year: int, cb: bool, load: string -> Frame)
    requires LowerCaseStateTable(t)
    requires forall i :: 0 <= i < |t| ==> !Denotes(t[i], "us")
    requires |counties.Tokens()| > 0
    ensures GetTracts(t, ct, None, counties, year, cb, load).Err?
  {
    UsIsNormalised();
    assert ValidateState(t, "us").Err?;
    if TractState(t, None, year, cb).Ok? {
      var tokens := counties.Tokens();
      assert ValidateCounty(t, ct, "us", tokens[0]).Err?;
      var url := Urls.ConstructUrl(t, year, "tract", cb, "500k", "us");
      if url.Ok? {
        assert SelectCounties(t, ct, "us", counties, load(url.value)).Err?;
      }
    }
  }

  /** The token `us` is already lower-case and stripped. */
  lemma UsIsNormalised()
    ensures NormaliseToken("us") == "us"
  {
    assert IsLower("us") && IsStripped("us");
    LowerOfLower("us");
    StripOfStripped("us");
  }

  /** The row lies in a county one of the tokens resolves to. */
  predicate InRequestedCounty(t: StateTable, ct: CountyTable, st: string, tokens: seq<string>, row: Row)
    requires LowerCaseStateTable(t)
  {
    "COUNTYFP" in row && exists i :: 0 <= i < |tokens| && ValidateCounty(t, ct, st, tokens[i]) == Ok(row["COUNTYFP"])
  }

  /** Rebuilding the codes keeps every row's county. */
  lemma RebuildKeepsCounties(rows: Frame, year: int, codes: set<string>)
    requires forall row :: row in rows ==> "COUNTYFP" in row && row["COUNTYFP"] in codes
    ensures var rebuilt := RebuildTracts(rows, year);
            forall k :: 0 <= k < |rebuilt| ==> "COUNTYFP" in rebuilt[k] && rebuilt[k]["COUNTYFP"] in codes
  {
    assert forall k :: 0 <= k < |rows| ==> rows[k] in rows;
  }

  /** Rebuilding the codes and merging keeps every row's county among those
      of the input rows. */
  lemma FinishTractsKeepsCounties(rows: Frame, year: int, cb: bool, codes: set<string>)
    requires forall row :: row in rows ==> "COUNTYFP" in row && row["COUNTYFP"] in codes
    ensures forall row :: row in FinishTracts(rows, year, cb) ==> "COUNTYFP" in row && row["COUNTYFP"] in codes
  {
    if Legacy(year, cb) {
      var keys := ["STATEFP", "COUNTYFP", "TRACT"];
      RebuildKeepsCounties(rows, year, codes);
      assert keys[1] == "COUNTYFP";
      DissolveKeepsCounties(RebuildTracts(rows, year), keys, codes);
    }
  }

  /** Every tract row that survives a county selection lies in one of the
      requested counties, also after the legacy codes are rebuilt and the
      pieces merged. */
  lemma GetTractsCountyFilter(t: StateTable, ct: CountyTable, state: Option<string>, counties: Selector, year: int, cb: bool, load: string -> Frame)
    requires LowerCaseStateTable(t) && !counties.Absent?
    ensures var r := GetTracts(t, ct, state, counties, year, cb, load);
            r.Ok? ==> forall row :: row in r.value ==>
              InRequestedCounty(t, ct, TractState(t, state, year, cb).value, counties.Tokens(), row)
  {
    if GetTracts(t, ct, state, counties, year, cb, load).Ok? {
      var st := TractState(t, state, year, cb).value;
      var url := Urls.ConstructUrl(t, year, "tract", cb, "500k", st).value;
      var rows := SelectCounties(t, ct, st, counties, load(url)).value;
      var codes := ValidateCounties(t, ct, st, counties.Tokens()).value;
      assert GetTracts(t, ct, state, counties, year, cb, load).value == FinishTracts(rows, year, cb);
      FinishTractsKeepsCounties(rows, year, cb, codes);
    }
  }
}

=== FILE: frames.dfy ===
/** The row-level work the entry points do on a loaded frame: selection of
    rows by a column's value, the rebuilt tract code of the 1990 and 2000
    cartographic files, and the merge of rows that share a key. A row maps
    column names to values; a column the row lacks is a null. */
module Frames {
  import opened Text
  import opened Results
  import opened Seqs

  type Row = map<string, string>

  type Frame = seq<Row>

  /** `df[df[col].isin(values)]`: the rows whose value in `col` is one of
      `values`, in their original order; a null is never in the set. */
  function FilterIn(rows: Frame, col: string, values: set<string>): (r: Frame)
    ensures |r| <= |rows|
    ensures forall row :: row in r <==> row in rows && col in row && row[col] in values
  {
    Filter(rows, (row: Row) => col in row && row[col] in values)
  }

  /** Selection keeps the selected rows in frame order and keeps duplicates:
      it splits over concatenation and keeps or drops each single row. */
  lemma FilterInOrder(a: Frame, b: Frame, row: Row, col: string, values: set<string>)
    ensures FilterIn(a + b, col, values) == FilterIn(a, col, values) + FilterIn(b, col, values)
    ensures FilterIn([row], col, values) == if col in row && row[col] in values then [row] else []
    ensures forall x :: multiset(FilterIn(a, col, values))[x] == if col in x && x[col] in values then multiset(a)[x] else 0
  {
    var p := (row: Row) => col in row && row[col] in values;
    FilterAppend(a, b, p);
    FilterSingleton(row, p);
    FilterMultiset(a, p);
  }

  /** Selection keeps rows with distinct keys distinct. */
  lemma FilterInKeepsKeysDistinct(rows: Frame, col: string, values: set<string>, keys: seq<string>)
    requires forall i, j :: 0 <= i < j < |rows| ==> KeyOf(rows[i], keys) != KeyOf(rows[j], keys)
    ensures var r := FilterIn(rows, col, values);
            forall i, j :: 0 <= i < j < |r| ==> KeyOf(r[i], keys) != KeyOf(r[j], keys)
  {
    FilterPairwise(rows, (row: Row) => col in row && row[col] in values, (a: Row, b: Row) => KeyOf(a, keys) != KeyOf(b, keys));
  }

  /** The 1990 tract code: a null `TRACTSUF` is filled with "00" and `TRACT`
      is the text of `TRACTBASE` followed by the suffix; the text of a null
      base is "nan". */
  function RebuildTract1990(row: Row): (r: Row)
    ensures "TRACTSUF" in r && "TRACT" in r
    ensures "TRACTSUF" in row ==> r["TRACTSUF"] == row["TRACTSUF"]
    ensures "TRACTSUF" !in row ==> r["TRACTSUF"] == "00"
    ensures "TRACTBASE" in row ==> r["TRACT"] == row["TRACTBASE"] + r["TRACTSUF"]
    ensures forall c :: c != "TRACT" && c != "TRACTSUF" ==> (c in r <==> c in row) && (c in row ==> r[c] == row[c])
  {
    var suf := if "TRACTSUF" in row then row["TRACTSUF"] else "00";
    var base := if "TRACTBASE" in row then row["TRACTBASE"] else "nan";
    row["TRACTSUF" := suf]["TRACT" := base + suf]
  }

  /** The 2000 tract code: `TRACT` left-padded with '0' to six characters; a
      null stays null. */
  function PadTract2000(row: Row): (r: Row)
    ensures "TRACT" in r <==> "TRACT" in row
    ensures "TRACT" in row ==> |r["TRACT"]| == if |row["TRACT"]| < 6 then 6 else |row["TRACT"]|
    ensures "TRACT" in row ==> EndsWith(r["TRACT"], row["TRACT"])
    ensures "TRACT" in row ==> forall i :: 0 <= i < |r["TRACT"]| - |row["TRACT"]| ==> r["TRACT"][i] == '0'
    ensures forall c :: c != "TRACT" ==> (c in r <==> c in row) && (c in row ==> r[c] == row[c])
  {
    if "TRACT" in row then row["TRACT" := LeftPad(row["TRACT"], 6, '0')] else row
  }

  function MapRows(rows: Frame, f: Row -> Row): (r: Frame)
    ensures |r| == |rows|
    ensures forall i :: 0 <= i < |rows| ==> r[i] == f(rows[i])
  {
    seq(|rows|, i requires 0 <= i < |rows| => f(rows[i]))
  }

  /** The values of the key columns, or `None` when one of them is null: such
      a row belongs to no group. */
  function KeyOf(row: Row, keys: seq<string>): (k: Option<seq<string>>)
    ensures k.Some? <==> forall j :: 0 <= j < |keys| ==> keys[j] in row
    ensures k.Some? ==> |k.value| == |keys| && forall j :: 0 <= j < |keys| ==> k.value[j] == row[keys[j]]
  {
    if forall j :: 0 <= j < |keys| ==> keys[j] in row then Some(seq(|keys|, j requires 0 <= j < |keys| => row[keys[j]]))
    else None
  }

  /** Two rows with the same key agree on the first key column. */
  lemma SameKeySameFirst(a: Row, b: Row, keys: seq<string>)
    requires |keys| > 0 && KeyOf(a, keys).Some? && KeyOf(a, keys) == KeyOf(b, keys)
    ensures keys[0] in a && keys[0] in b && a[keys[0]] == b[keys[0]]
  {
    assert KeyOf(a, keys).value[0] == KeyOf(b, keys).value[0];
  }

  /** The keys of the rows that have one, in row order, repeats included. */
  function RowKeys(rows: Frame, keys: seq<string>): (r: seq<seq<string>>)
    ensures forall k :: k in r <==> exists row :: row in rows && KeyOf(row, keys) == Some(k)
  {
    if |rows| == 0 then []
    else
      var rest := RowKeys(rows[1..], keys);
      assert forall row :: row in rows <==> row == rows[0] || row in rows[1..];
      match KeyOf(rows[0], keys)
      case Some(k) => [k] + rest
      case None => rest
  }

  /** The first occurrence of every element, in order. */
  function Dedup<T(==,!new)>(s: seq<T>): (r: seq<T>)
    ensures forall x :: x in r <==> x in s
    ensures forall i, j :: 0 <= i < j < |r| ==> r[i] != r[j]
  {
    if |s| == 0 then []
    else
      var d := Dedup(s[..|s| - 1]);
      assert forall x :: x in s <==> x in s[..|s| - 1] || x == s[|s| - 1];
      if s[|s| - 1] in d then d else d + [s[|s| - 1]]
  }

  /** The distinct keys of the frame. */
  function GroupKeys(rows: Frame, keys: seq<string>): (r: seq<seq<string>>)
    ensures forall k :: k in r <==> exists row :: row in rows && KeyOf(row, keys) == Some(k)
    ensures forall i, j :: 0 <= i < j < |r| ==> r[i] != r[j]
  {
    Dedup(RowKeys(rows, keys))
  }

  predicate InGroup(row: Row, keys: seq<string>, k: seq<string>)
  {
    KeyOf(row, keys) == Some(k)
  }

  /** The rows with key `k`, in row order. */
  function Group(rows: Frame, keys: seq<string>, k: seq<string>): (g: Frame)
    ensures forall row :: row in g <==> row in rows && InGroup(row, keys, k)
  {
    Filter(rows, (row: Row) => InGroup(row, keys, k))
  }

  /** A group lists its rows in frame order, duplicates included. */
  lemma GroupOrder(a: Frame, b: Frame, row: Row, keys: seq<string>, k: seq<string>)
    ensures Group(a + b, keys, k) == Group(a, keys, k) + Group(b, keys, k)
    ensures Group([row], keys, k) == if InGroup(row, keys, k) then [row] else []
  {
    var p := (row: Row) => InGroup(row, keys, k);
    FilterAppend(a, b, p);
    FilterSingleton(row, p);
  }

  /** `groupby(...).first()` on one group: per column, the value of the first
      row where the column is not null (see `FirstNonNullValue`). */
  function FirstNonNull(group: Frame): Row
  {
    if |group| == 0 then map[] else FirstNonNull(group[1..]) + group[0]
  }

  /** A column is in the first-value row exactly when some row of the group has it. */
  lemma {:induction false} FirstNonNullDomain(group: Frame, c: string)
    ensures c in FirstNonNull(group) <==> exists i :: 0 <= i < |group| && c in group[i]
  {
    if |group| > 0 {
      FirstNonNullDomain(group[1..], c);
      if c in FirstNonNull(group[1..]) {
        var i :| 0 <= i < |group[1..]| && c in group[1..][i];
        assert c in group[i + 1];
      }
      if i :| 0 < i < |group| && c in group[i] {
        assert c in group[1..][i - 1];
      }
    }
  }

  /** Its value is that of the first row of the group where the column is not null. */
  lemma {:induction false} FirstNonNullValue(group: Frame, c: string)
    requires c in FirstNonNull(group)
    ensures exists i :: 0 <= i < |group| && c in group[i] && FirstNonNull(group)[c] == group[i][c]
                        && forall j :: 0 <= j < i ==> c !in group[j]
  {
    if c in group[0] {
      assert FirstNonNull(group)[c] == group[0][c];
    } else {
      var rest := group[1..];
      FirstNonNullValue(rest, c);
      var i :| 0 <= i < |rest| && c in rest[i] && FirstNonNull(rest)[c] == rest[i][c] && forall j :: 0 <= j < i ==> c !in rest[j];
      assert forall j :: 1 <= j <= i ==> group[j] == rest[j - 1];
      assert c in group[i + 1] && FirstNonNull(group)[c] == group[i + 1][c];
    }
  }

  /** The columns the merge sums or unions instead of taking a first value. */
  const Aggregated: set<string> := {"geometry", "AREA", "PERIMETER"}

  function WithoutAggregated(row: Row): (r: Row)
    ensures forall c :: c in r <==> c in row && c !in Aggregated
    ensures forall c :: c in r ==> r[c] == row[c]
  {
    map c | c in row && c !in Aggregated :: row[c]
  }

  /** The merged row of the group with key `k`: the group's first non-null
      values, without geometry, AREA and PERIMETER. */
  function MergedRow(rows: Frame, keys: seq<string>, k: seq<string>): Row
  {
    WithoutAggregated(FirstNonNull(Group(rows, keys, k)))
  }

  /** A group of a key the frame has is not empty, and all its rows carry the key. */
  lemma GroupOfKey(rows: Frame, keys: seq<string>, k: seq<string>)
    requires k in GroupKeys(rows, keys)
    ensures |Group(rows, keys, k)| > 0
    ensures forall i :: 0 <= i < |Group(rows, keys, k)| ==> KeyOf(Group(rows, keys, k)[i], keys) == Some(k)
  {
    var row :| row in rows && KeyOf(row, keys) == Some(k);
    assert row in Group(rows, keys, k);
    var g := Group(rows, keys, k);
    assert forall i :: 0 <= i < |g| ==> g[i] in g;
  }

  /** The merged row of a group carries the group's key, as long as no key
      column is one the merge aggregates. */
  lemma MergedRowKey(rows: Frame, keys: seq<string>, k: seq<string>)
    requires forall j :: 0 <= j < |keys| ==> keys[j] !in Aggregated
    requires k in GroupKeys(rows, keys)
    ensures KeyOf(MergedRow(rows, keys, k), keys) == Some(k)
  {
    var g := Group(rows, keys, k);
    GroupOfKey(rows, keys, k);
    var first := FirstNonNull(g);
    forall j | 0 <= j < |keys|
      ensures keys[j] in first && first[keys[j]] == k[j]
    {
      assert keys[j] in g[0];
      FirstNonNullDomain(g, keys[j]);
      FirstNonNullValue(g, keys[j]);
      var m :| 0 <= m < |g| && keys[j] in g[m] && first[keys[j]] == g[m][keys[j]];
      assert KeyOf(g[m], keys) == Some(k);
    }
    assert KeyOf(g[0], keys) == Some(k);
    var row := MergedRow(rows, keys, k);
    assert row == WithoutAggregated(first);
    assert KeyOf(row, keys).value == k;
  }

  lemma MergedRowsKeyed(rows: Frame, keys: seq<string>)
    requires forall j :: 0 <= j < |keys| ==> keys[j] !in Aggregated
    ensures var ks := GroupKeys(rows, keys);
            forall i :: 0 <= i < |ks| ==> KeyOf(MergedRow(rows, keys, ks[i]), keys) == Some(ks[i])
  {
    var ks := GroupKeys(rows, keys);
    forall i | 0 <= i < |ks|
      ensures KeyOf(MergedRow(rows, keys, ks[i]), keys) == Some(ks[i])
    {
      MergedRowKey(rows, keys, ks[i]);
    }
  }

  /** The merge of the 1990 and 2000 cartographic files: one row per distinct
      key, in order of first appearance, carrying the group's first non-null
      value of every column other than geometry, AREA and PERIMETER. When no
      key column is aggregated, each merged row carries its group's key, so
      no two merged rows share a key. */
  function Dissolve(rows: Frame, keys: seq<string>): (r: Frame)
    ensures |r| == |GroupKeys(rows, keys)|
    ensures forall i :: 0 <= i < |r| ==> r[i] == MergedRow(rows, keys, GroupKeys(rows, keys)[i])
    ensures forall i, c :: 0 <= i < |r| && c in r[i] ==> c !in Aggregated
    ensures (forall j :: 0 <= j < |keys| ==> keys[j] !in Aggregated) ==>
              forall i :: 0 <= i < |r| ==> KeyOf(r[i], keys) == Some(GroupKeys(rows, keys)[i])
    ensures (forall j :: 0 <= j < |keys| ==> keys[j] !in Aggregated) ==>
              forall i, j :: 0 <= i < j < |r| ==> KeyOf(r[i], keys) != KeyOf(r[j], keys)
  {
    var ks := GroupKeys(rows, keys);
    var r := seq(|ks|, i requires 0 <= i < |ks| => MergedRow(rows, keys, ks[i]));
    if forall j :: 0 <= j < |keys| ==> keys[j] !in Aggregated then
      MergedRowsKeyed(rows, keys);
      r
    else r
  }

  /** After the merge there is one row per key: no two rows share a key, and
      every row of the input that has a key finds its key in the output. */
  lemma DissolveOneRowPerKey(rows: Frame, keys: seq<string>)
    requires forall j :: 0 <= j < |keys| ==> keys[j] !in Aggregated
    ensures var r := Dissolve(rows, keys);
            forall i, j :: 0 <= i < j < |r| ==> KeyOf(r[i], keys) != KeyOf(r[j], keys)
    ensures var r := Dissolve(rows, keys);
            forall row :: row in rows && KeyOf(row, keys).Some? ==>
              exists i :: 0 <= i < |r| && KeyOf(r[i], keys) == KeyOf(row, keys)
  {
    var r := Dissolve(rows, keys);
    var ks := GroupKeys(rows, keys);
    forall row | row in rows && KeyOf(row, keys).Some?
      ensures exists i :: 0 <= i < |r| && KeyOf(r[i], keys) == KeyOf(row, keys)
    {
      var k := KeyOf(row, keys).value;
      assert k in ks;
      var i :| 0 <= i < |ks| && ks[i] == k;
      assert KeyOf(r[i], keys) == Some(k);
    }
  }

  /** Every other kept column of a merged row holds the value of the first row
      of its group where that column is not null. */
  lemma DissolveFirstValue(rows: Frame, keys: seq<string>, i: nat, c: string)
    requires i < |GroupKeys(rows, keys)|
    requires c in Dissolve(rows, keys)[i]
    ensures var g := Group(rows, keys, GroupKeys(rows, keys)[i]);
            c !in Aggregated &&
            exists m :: 0 <= m < |g| && c in g[m] && Dissolve(rows, keys)[i][c] == g[m][c]
                        && forall j :: 0 <= j < m ==> c !in g[j]
  {
    var g := Group(rows, keys, GroupKeys(rows, keys)[i]);
    FirstNonNullValue(g, c);
  }

  /** Every value of a merged row is the value of that column in some input row. */
  lemma DissolveValueFromInput(rows: Frame, keys: seq<string>, row: Row, c: string)
    requires row in Dissolve(rows, keys) && c in row
    ensures exists k :: 0 <= k < |rows| && c in rows[k] && rows[k][c] == row[c]
  {
    var r := Dissolve(rows, keys);
    var n :| 0 <= n < |r| && r[n] == row;
    DissolveFirstValue(rows, keys, n, c);
    var g := Group(rows, keys, GroupKeys(rows, keys)[n]);
    var m :| 0 <= m < |g| && c in g[m] && row[c] == g[m][c];
    assert g[m] in g;
    var k :| 0 <= k < |rows| && rows[k] == g[m];
  }

  /** Merging keeps every row's county among those of the input rows. */
  lemma DissolveKeepsCounties(rows: Frame, keys: seq<string>, codes: set<string>)
    requires forall j :: 0 <= j < |keys| ==> keys[j] !in Aggregated
    requires "COUNTYFP" in keys
    requires forall k :: 0 <= k < |rows| ==> "COUNTYFP" in rows[k] && rows[k]["COUNTYFP"] in codes
    ensures forall row :: row in Dissolve(rows, keys) ==> "COUNTYFP" in row && row["COUNTYFP"] in codes
  {
    forall row | row in Dissolve(rows, keys)
      ensures "COUNTYFP" in row && row["COUNTYFP"] in codes
    {
      var n :| 0 <= n < |Dissolve(rows, keys)| && Dissolve(rows, keys)[n] == row;
      DissolveValueFromInput(rows, keys, row, "COUNTYFP");
    }
  }

  /** A frame whose rows already have distinct keys comes out of the merge
      row for row, each merged row being its input row without the
      aggregated columns. */
  lemma DissolveDistinctKeys(rows: Frame, keys: seq<string>)
    requires forall i :: 0 <= i < |rows| ==> KeyOf(rows[i], keys).Some?
    requires forall i, j :: 0 <= i < j < |rows| ==> KeyOf(rows[i], keys) != KeyOf(rows[j], keys)
    ensures |Dissolve(rows, keys)| == |rows|
    ensures forall i :: 0 <= i < |rows| ==> Dissolve(rows, keys)[i] == WithoutAggregated(rows[i])
  {
    DistinctKeysCount(rows, keys);
    forall i | 0 <= i < |rows|
      ensures Dissolve(rows, keys)[i] == WithoutAggregated(rows[i])
    {
      var k := KeyOf(rows[i], keys).value;
      assert GroupKeys(rows, keys)[i] == k;
      GroupOfDistinctKey(rows, keys, i);
      FirstNonNullSingle(rows[i]);
    }
  }

  /** With distinct keys, the group of a row's key is that row alone. */
  lemma GroupOfDistinctKey(rows: Frame, keys: seq<string>, i: nat)
    requires i < |rows| && KeyOf(rows[i], keys).Some?
    requires forall a, b :: 0 <= a < b < |rows| ==> KeyOf(rows[a], keys) != KeyOf(rows[b], keys)
    ensures Group(rows, keys, KeyOf(rows[i], keys).value) == [rows[i]]
  {
    var k := KeyOf(rows[i], keys).value;
    assert forall j :: 0 <= j < |rows| && j != i ==> KeyOf(rows[j], keys) != Some(k) by {
      forall j | 0 <= j < |rows| && j != i
        ensures KeyOf(rows[j], keys) != Some(k)
      {
        if j < i {
          assert KeyOf(rows[j], keys) != KeyOf(rows[i], keys);
        } else {
          assert KeyOf(rows[i], keys) != KeyOf(rows[j], keys);
        }
      }
    }
    FilterUnique(rows, (row: Row) => InGroup(row, keys, k), i);
  }

  /** The first values of a one-row group are that row. */
  lemma FirstNonNullSingle(row: Row)
    ensures FirstNonNull([row]) == row
  {
    assert [row][1..] == [];
    assert FirstNonNull([row]) == map[] + row;
  }

  lemma {:induction false} DistinctKeysCount(rows: Frame, keys: seq<string>)
    requires forall i :: 0 <= i < |rows| ==> KeyOf(rows[i], keys).Some?
    requires forall i, j :: 0 <= i < j < |rows| ==> KeyOf(rows[i], keys) != KeyOf(rows[j], keys)
    ensures GroupKeys(rows, keys) == seq(|rows|, i requires 0 <= i < |rows| => KeyOf(rows[i], keys).value)
  {
    var rk := RowKeys(rows, keys);
    RowKeysOfKeyed(rows, keys);
    DedupOfDistinct(rk);
  }

  lemma {:induction false} RowKeysOfKeyed(rows: Frame, keys: seq<string>)
    requires forall i :: 0 <= i < |rows| ==> KeyOf(rows[i], keys).Some?
    ensures |RowKeys(rows, keys)| == |rows|
    ensures forall i :: 0 <= i < |rows| ==> RowKeys(rows, keys)[i] == KeyOf(rows[i], keys).value
  {
    if |rows| > 0 {
      RowKeysOfKeyed(rows[1..], keys);
    }
  }

  lemma {:induction false} DedupOfDistinct<T(!new)>(s: seq<T>)
    requires forall i, j :: 0 <= i < j < |s| ==> s[i] != s[j]
    ensures Dedup(s) == s
  {
    if |s| > 0 {
      DedupOfDistinct(s[..|s| - 1]);
      assert s[|s| - 1] !in s[..|s| - 1];
      assert s[..|s| - 1] + [s[|s| - 1]] == s;
    }
  }
}

=== FILE: results.dfy ===
/** Failure-compatible results and the errors the library raises.
    Every `ValueError` the model keeps becomes an `Err` carrying one of the
    `Error` constructors below. The HTTP status-code errors and the runtime
    type checks are outside the model. */
module Results {

  datatype Option<+T> = None | Some(value: T)

  datatype Error =
    /** a resolution outside '500k', '5m', '20m' */
    | InvalidResolution(resolution: string)
    /** cartographic boundaries requested for a year with no archive */
    | CbYearUnavailable(year: int)
    /** cartographic 2012 asked for a type other than cd, sldl, sldu, ua */
    | Cb2012TypeUnsupported(queryType: string)
    /** cartographic 2010 asked for a type with no summary-level code (a KeyError) */
    | Cb2010TypeUnknown(queryType: string)
    /** full TIGER/Line files are not published for 1990 */
    | TigerNeeds1990Cb
    /** full TIGER/Line files requested for a year with no archive */
    | TigerYearUnavailable(year: int)
    /** the state-name lookup found no row for the code (an IndexError) */
    | StateNameMissing(state: string)
    /** a numeric state token that is not a usable FIPS code */
    | InvalidStateFips(token: string)
    /** a state token matching no code, name or abbreviation */
    | UnknownState(token: string)
    /** a numeric county token that is not a county FIPS code of the state */
    | InvalidCountyFips(county: string, state: string)
    /** a county name matching no county of the state */
    | CountyNotFound(county: string, state: string)
    /** a county name matching several counties of the state, all listed */
    | CountyAmbiguous(county: string, state: string, candidates: seq<string>)
    /** national tracts requested without cb or for a year up to 2018 */
    | NationalTractsUnavailable

  datatype Result<+T> = Ok(value: T) | Err(error: Error) {

    predicate IsFailure()
    {
      Err?
    }

    function PropagateFailure<U>(): Result<U>
      requires Err?
    {
      Err(error)
    }

    function Extract(): T
      requires Ok?
    {
      value
    }
  }
}

=== FILE: seqs.dfy ===
/** Order-preserving selection over sequences: the pandas boolean-mask
    selection `frame[mask]` and the `iloc[0]` of a filtered table. */
module Seqs {
  import opened Results

  /** The elements of `s` that satisfy `p`, in their original order. */
  function Filter<T(!new)>(s: seq<T>, p: T -> bool): (r: seq<T>)
    ensures |r| <= |s|
    ensures forall x :: x in r <==> x in s && p(x)
  {
    if |s| == 0 then [] else (if p(s[0]) then [s[0]] else []) + Filter(s[1..], p)
  }

  /** Selection distributes over concatenation: the order of the kept
      elements is their order in `s`. Together with `FilterSingleton` this
      determines `Filter` completely. */
  lemma {:induction false} FilterAppend<T(!new)>(a: seq<T>, b: seq<T>, p: T -> bool)
    ensures Filter(a + b, p) == Filter(a, p) + Filter(b, p)
  {
    if |a| > 0 {
      assert (a + b)[0] == a[0];
      assert (a + b)[1..] == a[1..] + b;
      FilterAppend(a[1..], b, p);
    } else {
      assert a + b == b;
    }
  }

  /** A one-element sequence is kept exactly when its element satisfies `p`. */
  lemma FilterSingleton<T(!new)>(x: T, p: T -> bool)
    ensures Filter([x], p) == if p(x) then [x] else []
  {
    assert [x][1..] == [];
  }

  /** Selection keeps every copy of a satisfying element and drops every
      copy of the others. */
  lemma {:induction false} FilterMultiset<T(!new)>(s: seq<T>, p: T -> bool)
    ensures forall x :: multiset(Filter(s, p))[x] == if p(x) then multiset(s)[x] else 0
  {
    if |s| > 0 {
      FilterMultiset(s[1..], p);
      assert s == [s[0]] + s[1..];
      assert multiset(s) == multiset([s[0]]) + multiset(s[1..]);
      assert Filter(s, p) == (if p(s[0]) then [s[0]] else []) + Filter(s[1..], p);
    }
  }

  /** Index of the first element satisfying `p`, if any. */
  function FirstIndex<T>(s: seq<T>, p: T -> bool): (r: Option<nat>)
    ensures r.Some? ==> r.value < |s| && p(s[r.value])
    ensures r.Some? ==> forall j :: 0 <= j < r.value ==> !p(s[j])
    ensures r.None? ==> forall j :: 0 <= j < |s| ==> !p(s[j])
  {
    if |s| == 0 then None
    else if p(s[0]) then Some(0)
    else match FirstIndex(s[1..], p)
      case None => None
      case Some(k) => Some(k + 1)
  }

  /** No element is selected exactly when no element satisfies `p`. */
  lemma {:induction false} FilterEmptyIff<T(!new)>(s: seq<T>, p: T -> bool)
    ensures |Filter(s, p)| == 0 <==> forall i :: 0 <= i < |s| ==> !p(s[i])
  {
    if |s| > 0 {
      FilterEmptyIff(s[1..], p);
      assert forall i :: 1 <= i < |s| ==> s[i] == s[1..][i - 1];
    }
  }

  /** When exactly one index satisfies `p`, the selection is that element alone. */
  lemma {:induction false} FilterUnique<T(!new)>(s: seq<T>, p: T -> bool, k: nat)
    requires k < |s| && p(s[k])
    requires forall j :: 0 <= j < |s| && j != k ==> !p(s[j])
    ensures Filter(s, p) == [s[k]]
  {
    if k == 0 {
      FilterEmptyIff(s[1..], p);
    } else {
      FilterUnique(s[1..], p, k - 1);
    }
  }

  /** A selection of one element comes from exactly one satisfying index. */
  lemma {:induction false} FilterSingle<T(!new)>(s: seq<T>, p: T -> bool)
    requires |Filter(s, p)| == 1
    ensures exists k :: 0 <= k < |s| && p(s[k]) && Filter(s, p) == [s[k]] && forall j :: 0 <= j < |s| && j != k ==> !p(s[j])
  {
    if p(s[0]) {
      FilterEmptyIff(s[1..], p);
      assert Filter(s, p) == [s[0]];
    } else {
      FilterSingle(s[1..], p);
      var k :| 0 <= k < |s[1..]| && p(s[1..][k]) && Filter(s[1..], p) == [s[1..][k]] && forall j :: 0 <= j < |s[1..]| && j != k ==> !p(s[1..][j]);
      assert forall j :: 1 <= j < |s| ==> s[j] == s[1..][j - 1];
      assert p(s[k + 1]) && Filter(s, p) == [s[k + 1]];
    }
  }

  /** A selection of two or more elements comes from two distinct satisfying indices. */
  lemma {:induction false} FilterMany<T(!new)>(s: seq<T>, p: T -> bool)
    requires |Filter(s, p)| >= 2
    ensures exists i, j :: 0 <= i < j < |s| && p(s[i]) && p(s[j])
  {
    if p(s[0]) {
      var r := Filter(s[1..], p);
      assert r[0] in r;
      var m :| 0 <= m < |s[1..]| && s[1..][m] == r[0];
      assert p(s[0]) && p(s[m + 1]);
    } else {
      FilterMany(s[1..], p);
      var i, j :| 0 <= i < j < |s[1..]| && p(s[1..][i]) && p(s[1..][j]);
      assert p(s[i + 1]) && p(s[j + 1]);
    }
  }

  /** Two distinct satisfying indices give a selection of at least two elements. */
  lemma {:induction false} ManyFilter<T(!new)>(s: seq<T>, p: T -> bool, i: nat, j: nat)
    requires i < j < |s| && p(s[i]) && p(s[j])
    ensures |Filter(s, p)| >= 2
  {
    if i == 0 {
      assert s[j] == s[1..][j - 1];
      assert s[j] in Filter(s[1..], p);
    } else {
      ManyFilter(s[1..], p, i - 1, j - 1);
    }
  }

  /** Selection keeps any relation that holds between every earlier and later element. */
  lemma {:induction false} FilterPairwise<T(!new)>(s: seq<T>, p: T -> bool, R: (T, T) -> bool)
    requires forall i, j :: 0 <= i < j < |s| ==> R(s[i], s[j])
    ensures forall i, j :: 0 <= i < j < |Filter(s, p)| ==> R(Filter(s, p)[i], Filter(s, p)[j])
  {
    if |s| > 0 {
      var tail := s[1..];
      assert forall i, j :: 0 <= i < j < |tail| ==> tail[i] == s[i + 1] && tail[j] == s[j + 1];
      FilterPairwise(tail, p, R);
      var rest := Filter(tail, p);
      forall y | y in rest
        ensures R(s[0], y)
      {
        var k :| 0 <= k < |tail| && tail[k] == y;
        assert y == s[k + 1];
      }
    }
  }

  /** Apply a fallible `f` to every element in order: the first error stops
      the traversal, as an exception in a comprehension does. */
  function MapResult<T, U>(xs: seq<T>, f: T --> Result<U>): (r: Result<seq<U>>)
    requires forall i :: 0 <= i < |xs| ==> f.requires(xs[i])
    ensures r.Ok? <==> forall i :: 0 <= i < |xs| ==> f(xs[i]).Ok?
    ensures r.Ok? ==> |r.value| == |xs| && forall i :: 0 <= i < |xs| ==> f(xs[i]) == Ok(r.value[i])
    ensures r.Err? ==> exists i :: 0 <= i < |xs| && f(xs[i]) == Err(r.error) && forall j :: 0 <= j < i ==> f(xs[j]).Ok?
  {
    if |xs| == 0 then Ok([])
    else
      match f(xs[0])
      case Err(e) => Err(e)
      case Ok(first) =>
        var tail := xs[1..];
        assert forall i :: 1 <= i < |xs| ==> xs[i] == tail[i - 1];
        match MapResult(tail, f)
        case Err(e) =>
          var i :| 0 <= i < |tail| && f(tail[i]) == Err(e) && forall j :: 0 <= j < i ==> f(tail[j]).Ok?;
          assert f(xs[i + 1]) == Err(e);
          Err(e)
        case Ok(rest) => Ok([first] + rest)
  }

  /** Every element equal to `from` becomes `to`; the others stay in place.
      This is both `str.replace` on one character and `DataFrame.rename` of
      one column name. */
  function Replace<T(==)>(s: seq<T>, from: T, to: T): (r: seq<T>)
    ensures |r| == |s|
    ensures forall i :: 0 <= i < |s| ==> r[i] == (if s[i] == from then to else s[i])
    ensures from != to ==> from !in r
    ensures forall x :: x in r && x != to ==> x in s
  {
    seq(|s|, i requires 0 <= i < |s| => if s[i] == from then to else s[i])
  }
}

=== FILE: tables.dfy ===
/** The two bundled reference tables, as immutable sequences of records:
    `state_fips.csv` (columns fips, name, abb) and `national_county.csv`
    (columns ST_FIPS, CT_FIPS, CT_NAME). */
module Tables {
  import opened Text

  datatype StateRecord = StateRecord(fips: string, name: string, abb: string)

  type StateTable = seq<StateRecord>

  datatype CountyRecord = CountyRecord(stateFips: string, countyFips: string, name: string)

  type CountyTable = seq<CountyRecord>

  /** The state table stores names and abbreviations in lower case, the form
      the lower-cased user token is compared against. */
  predicate LowerCaseStateTable(t: StateTable)
  {
    forall i :: 0 <= i < |t| ==> IsLower(t[i].name) && IsLower(t[i].abb)
  }

  /** `code` is one of the table's FIPS codes. */
  predicate IsStateCode(t: StateTable, code: string)
  {
    exists i :: 0 <= i < |t| && t[i].fips == code
  }

  /** One row of the table as a reader of the bundled file sees it: a two-digit
      code, and a lower-case, trimmed, non-numeric name and abbreviation. */
  predicate WellFormedStateRecord(r: StateRecord)
  {
    && |r.fips| == 2 && IsNumeric(r.fips)
    && IsLower(r.name) && IsStripped(r.name) && !IsNumeric(r.name)
    && IsLower(r.abb) && IsStripped(r.abb) && !IsNumeric(r.abb)
  }

  /** Well-formed rows whose codes, names and abbreviations each identify one
      row, with no name spelled like any abbreviation. */
  predicate WellFormedStateTable(t: StateTable)
  {
    && (forall i :: 0 <= i < |t| ==> WellFormedStateRecord(t[i]))
    && (forall i, j :: 0 <= i < j < |t| ==> t[i].fips != t[j].fips)
    && (forall i, j :: 0 <= i < j < |t| ==> t[i].name != t[j].name)
    && (forall i, j :: 0 <= i < j < |t| ==> t[i].abb != t[j].abb)
    && (forall i, j :: 0 <= i < |t| && 0 <= j < |t| ==> t[i].name != t[j].abb)
  }
}

=== FILE: text.dfy ===
/** ASCII models of the Python string operations the library relies on:
    `str.lower`, `str.upper`, `str.strip`, `str.isnumeric`, substring search,
    `str(int)` and left padding. */
module Text {

  /** `str.lower` on one character (ASCII letters only). */
  function LowerChar(c: char): char
  {
    if 'A' <= c <= 'Z' then (c as int + 32) as char else c
  }

  /** `str.upper` on one character (ASCII letters only). */
  function UpperChar(c: char): char
  {
    if 'a' <= c <= 'z' then (c as int - 32) as char else c
  }

  function ToLower(s: string): (r: string)
    ensures |r| == |s|
    ensures forall i :: 0 <= i < |s| ==> r[i] == LowerChar(s[i])
  {
    seq(|s|, i requires 0 <= i < |s| => LowerChar(s[i]))
  }

  function ToUpper(s: string): (r: string)
    ensures |r| == |s|
    ensures forall i :: 0 <= i < |s| ==> r[i] == UpperChar(s[i])
  {
    seq(|s|, i requires 0 <= i < |s| => UpperChar(s[i]))
  }

  /** No upper-case ASCII letter occurs in `s`. */
  predicate IsLower(s: string)
  {
    forall i :: 0 <= i < |s| ==> !('A' <= s[i] <= 'Z')
  }

  lemma LowerOfLower(s: string)
    requires IsLower(s)
    ensures ToLower(s) == s
  {
  }

  /** Python's `name.upper().lower()` is `name.lower()` on ASCII text. */
  lemma LowerOfUpper(s: string)
    ensures ToLower(ToUpper(s)) == ToLower(s)
  {
  }

  lemma UpperOfLower(s: string)
    ensures ToUpper(ToLower(s)) == ToUpper(s)
  {
  }

  predicate IsDigit(c: char)
  {
    '0' <= c <= '9'
  }

  /** `str.isnumeric` restricted to ASCII digits: the empty string is not numeric. */
  predicate IsNumeric(s: string)
  {
    |s| > 0 && forall i :: 0 <= i < |s| ==> IsDigit(s[i])
  }

  /** The ASCII characters for which `str.isspace` holds. */
  predicate IsSpace(c: char)
  {
    9 <= c as int <= 13 || 28 <= c as int <= 32
  }

  function TrimStart(s: string): (r: string)
    ensures |r| <= |s| && r == s[|s| - |r|..]
    ensures forall i :: 0 <= i < |s| - |r| ==> IsSpace(s[i])
    ensures |r| > 0 ==> !IsSpace(r[0])
  {
    if |s| > 0 && IsSpace(s[0]) then TrimStart(s[1..]) else s
  }

  function TrimEnd(s: string): (r: string)
    ensures |r| <= |s| && r == s[..|r|]
    ensures forall i :: |r| <= i < |s| ==> IsSpace(s[i])
    ensures |r| > 0 ==> !IsSpace(r[|r| - 1])
  {
    if |s| > 0 && IsSpace(s[|s| - 1]) then TrimEnd(s[..|s| - 1]) else s
  }

  /** `str.strip()` with no argument. */
  function Strip(s: string): string
  {
    TrimEnd(TrimStart(s))
  }

  /** Neither end of `s` is white space. */
  predicate IsStripped(s: string)
  {
    |s| == 0 || (!IsSpace(s[0]) && !IsSpace(s[|s| - 1]))
  }

  lemma StripOfStripped(s: string)
    requires IsStripped(s)
    ensures Strip(s) == s
  {
  }

  /** Lower-casing never turns white space into text or text into white space. */
  lemma LowerCharKeepsSpace(c: char)
    ensures IsSpace(LowerChar(c)) <==> IsSpace(c)
  {
  }

  lemma {:induction false} TrimStartCommutesWithLower(s: string)
    ensures TrimStart(ToLower(s)) == ToLower(TrimStart(s))
  {
    if |s| > 0 {
      var l := ToLower(s);
      assert l[0] == LowerChar(s[0]);
      LowerCharKeepsSpace(s[0]);
      if IsSpace(s[0]) {
        assert l[1..] == ToLower(s[1..]);
        TrimStartCommutesWithLower(s[1..]);
      }
    }
  }

  lemma {:induction false} TrimEndCommutesWithLower(s: string)
    ensures TrimEnd(ToLower(s)) == ToLower(TrimEnd(s))
  {
    if |s| > 0 && IsSpace(s[|s| - 1]) {
      assert ToLower(s)[..|s| - 1] == ToLower(s[..|s| - 1]);
      TrimEndCommutesWithLower(s[..|s| - 1]);
    }
  }

  /** Lower-casing and stripping can be done in either order. */
  lemma StripCommutesWithLower(s: string)
    ensures Strip(ToLower(s)) == ToLower(Strip(s))
  {
    TrimStartCommutesWithLower(s);
    TrimEndCommutesWithLower(TrimStart(s));
  }

  predicate StartsWith(s: string, prefix: string)
  {
    |prefix| <= |s| && s[..|prefix|] == prefix
  }

  predicate EndsWith(s: string, suffix: string)
  {
    |suffix| <= |s| && s[|s| - |suffix|..] == suffix
  }

  /** `needle` occurs in `hay` starting at position `i`. */
  predicate OccursAt(hay: string, needle: string, i: int)
  {
    0 <= i <= |hay| - |needle| && hay[i..i + |needle|] == needle
  }

  /** Literal substring search: `needle` occurs somewhere in `hay`. */
  function Contains(hay: string, needle: string): bool
    decreases |hay|
  {
    if StartsWith(hay, needle) then true
    else if |hay| <= |needle| then false
    else Contains(hay[1..], needle)
  }

  lemma {:induction false} ContainsIff(hay: string, needle: string)
    ensures Contains(hay, needle) <==> exists i :: OccursAt(hay, needle, i)
    decreases |hay|
  {
    assert OccursAt(hay, needle, 0) ==> StartsWith(hay, needle) by {
      if OccursAt(hay, needle, 0) {
        assert hay[..|needle|] == hay[0..0 + |needle|];
      }
    }
    if StartsWith(hay, needle) {
      assert OccursAt(hay, needle, 0);
    } else if |hay| <= |needle| {
      assert forall i :: OccursAt(hay, needle, i) ==> i == 0;
    } else {
      ContainsIff(hay[1..], needle);
      if i :| OccursAt(hay, needle, i) {
        assert 1 <= i <= |hay| - |needle|;
        assert hay[i..i + |needle|] == hay[1..][i - 1..i - 1 + |needle|];
        assert OccursAt(hay[1..], needle, i - 1);
      }
      if j :| OccursAt(hay[1..], needle, j) {
        assert hay[j + 1..j + 1 + |needle|] == hay[1..][j..j + |needle|];
        assert OccursAt(hay, needle, j + 1);
      }
    }
  }

  function DigitChar(d: nat): (c: char)
    requires d < 10
    ensures IsDigit(c)
  {
    ('0' as int + d) as char
  }

  /** `str(n)` for a non-negative integer: decimal digits, no leading zero. */
  function NatToString(n: nat): (r: string)
    ensures IsNumeric(r)
    ensures |r| == 1 <==> n < 10
    ensures r[0] != '0' || n == 0
  {
    if n < 10 then [DigitChar(n)] else NatToString(n / 10) + [DigitChar(n % 10)]
  }

  /** The number a string of decimal digits denotes, read left to right. */
  function DigitsValue(s: string): nat
    requires forall i :: 0 <= i < |s| ==> IsDigit(s[i])
  {
    if |s| == 0 then 0
    else
      assert IsDigit(s[|s| - 1]);
      DigitsValue(s[..|s| - 1]) * 10 + (s[|s| - 1] as int - '0' as int)
  }

  /** `str(n)` reads back as `n`: the digits denote the number. */
  lemma {:induction false} NatToStringValue(n: nat)
    ensures DigitsValue(NatToString(n)) == n
  {
    var r := NatToString(n);
    if n >= 10 {
      NatToStringValue(n / 10);
      assert r[..|r| - 1] == NatToString(n / 10);
      assert r[|r| - 1] == DigitChar(n % 10);
    }
  }

  /** `s.rjust(width, fill)`: pads on the left up to `width` characters, never truncates. */
  function LeftPad(s: string, width: nat, fill: char): (r: string)
    ensures |r| == if |s| >= width then |s| else width
    ensures EndsWith(r, s)
    ensures forall i :: 0 <= i < |r| - |s| ==> r[i] == fill
  {
    if |s| >= width then s else seq(width - |s|, _ => fill) + s
  }
}

=== FILE: urls.dfy ===
/** The URL rules engine: `construct_url` maps (year, geography type,
    cartographic flag, resolution, state) to the archive URL of one of the
    Census Bureau's historically different directory layouts, or to an error
    when no archive is published for the combination. */
module Urls {
  import opened Text
  import opened Results
  import opened Seqs
  import opened Tables
  import Constants

  /** Every archive lives under this root. */
  const Root: string := "https://www2.census.gov/geo/tiger/"

  /** `get_state_name`: the name in the first row carrying the code.
      `None` stands for the IndexError of `iloc[0]` on an empty selection. */
  function GetStateName(t: StateTable, fips: string): (r: Option<string>)
    ensures r.Some? <==> IsStateCode(t, fips)
    ensures r.Some? ==> exists i :: 0 <= i < |t| && t[i].fips == fips && t[i].name == r.value
  {
    match FirstIndex(t, (rec: StateRecord) => rec.fips == fips)
    case Some(i) => Some(t[i].name)
    case None => None
  }

  /** `str(year)[-2:]`. */
  function LastTwoDigits(year: nat): string
  {
    var s := NatToString(year);
    if |s| >= 2 then s[|s| - 2..] else s
  }

  /** The summary-level codes hard-coded in the cartographic 2010 branch. */
  function Cb2010Code(queryType: string): Option<string>
  {
    if queryType == "state" then Some("040")
    else if queryType == "county" then Some("050")
    else if queryType == "tract" then Some("140")
    else None
  }

  /** The geography types with a cartographic 2012 archive. */
  predicate IsCb2012Type(queryType: string)
  {
    queryType == "cd" || queryType == "sldl" || queryType == "sldu" || queryType == "ua"
  }

  /** `query_type[:2].lower()`. */
  function TypeAbbreviation(queryType: string): string
  {
    ToLower(if |queryType| < 2 then queryType else queryType[..2])
  }

  /** `get_state_name(state).upper().replace(" ", "_")`: the directory name
      part of the 2008 and 2009 per-state folders. */
  function StateFolderName(t: StateTable, state: string): (r: Option<string>)
    ensures r.Some? <==> IsStateCode(t, state)
  {
    match GetStateName(t, state)
    case Some(name) => Some(Replace(ToUpper(name), ' ', '_'))
    case None => None
  }

  /** Which requests have an archive, read from the archive layout rather than
      from the branch order: cartographic boundaries for 1990, 2000, 2010
      (state, county and tract only), 2012 (cd, sldl, sldu, ua only) and every
      year from 2013; full TIGER/Line files for 2000, 2010 and every year after
      2010, and for 2008 and 2009 as national state and county files or per
      state folders of a state the table names. */
  predicate Published(t: StateTable, year: int, queryType: string, cb: bool, state: string)
  {
    var ty := ToLower(queryType);
    if cb then
      || year in {1990, 2000}
      || (year == 2010 && ty in {"state", "county", "tract"})
      || (year == 2012 && ty in {"cd", "sldl", "sldu", "ua"})
      || year >= 2013
    else
      || year in {2000, 2010}
      || year > 2010
      || (year in {2008, 2009} && ((ty in {"state", "county"} && state == "us") || IsStateCode(t, state)))
  }

  /** The URL of archive `stem`.zip in directory `dir` under the root. */
  function Archive(dir: string, stem: string): (url: string)
    ensures StartsWith(url, Root) && EndsWith(url, ".zip")
  {
    var url := Root + dir + "/" + stem + ".zip";
    assert url[..|Root|] == Root;
    assert url[|url| - 4..] == ".zip";
    url
  }

  lemma ArchiveSpelledOut(dir: string, stem: string)
    ensures Archive(dir, stem) == Root + dir + "/" + stem + ".zip"
  {
  }

  /** The cartographic-boundary branch of `construct_url`; `ty` is the
      lower-cased type and `abb` its two-letter abbreviation. */
  function CbUrl(year: int, ty: string, abb: string, resolution: string, state: string): (r: Result<string>)
    ensures r.Ok? <==>
      || year in {1990, 2000}
      || (year == 2010 && ty in {"state", "county", "tract"})
      || (year == 2012 && ty in {"cd", "sldl", "sldu", "ua"})
      || year >= 2013
  {
    if year == 1990 || year == 2000 then
      var v := if ty == "tract" then state else "99";
      var yy := LastTwoDigits(year);
      Ok(Archive("PREVGENZ/" + abb + "/" + abb + yy + "shp", abb + v + "_d" + yy + "_shp"))
    else if year == 2010 then
      match Cb2010Code(ty)
      case Some(code) => Ok(Archive("GENZ2010", "gz_2010_" + state + "_" + code + "_00_" + resolution))
      case None => Err(Cb2010TypeUnknown(ty))
    else if year == 2013 then
      var y := NatToString(year);
      Ok(Archive("GENZ" + y, "cb_" + y + "_" + state + "_" + ty + "_" + resolution))
    else if year == 2012 then
      if IsCb2012Type(ty) then
        Ok(Archive("GENZ" + NatToString(year) + "/shp", "cb_rd13_" + state + "_" + ty + "_" + resolution))
      else
        Err(Cb2012TypeUnsupported(ty))
    else if year > 2013 then
      var y := NatToString(year);
      Ok(Archive("GENZ" + y + "/shp", "cb_" + y + "_" + state + "_" + ty + "_" + resolution))
    else
      Err(CbYearUnavailable(year))
  }

  /** The full TIGER/Line branch of `construct_url`; `ty` is the lower-cased type. */
  function TigerUrl(t: StateTable, year: int, ty: string, state: string): (r: Result<string>)
    ensures r.Ok? <==>
      || year in {2000, 2010}
      || year > 2010
      || (year in {2008, 2009} && ((ty in {"state", "county"} && state == "us") || IsStateCode(t, state)))
  {
    if year == 1990 then
      Err(TigerNeeds1990Cb)
    else if year == 2000 || year == 2010 then
      Ok(Archive("TIGER2010/" + ToUpper(ty) + "/" + NatToString(year), "tl_2010_" + state + "_" + ty + LastTwoDigits(year)))
    else if year == 2008 || year == 2009 then
      var y := NatToString(year);
      if (ty == "state" || ty == "county") && state == "us" then
        Ok(Archive("TIGER" + y, "tl_" + y + "_" + state + "_" + ty))
      else
        match StateFolderName(t, state)
        case Some(folder) => Ok(Archive("TIGER" + y + "/" + state + "_" + folder, "tl_" + y + "_" + state + "_" + ty + "00"))
        case None => Err(StateNameMissing(state))
    else if year > 2010 then
      var y := NatToString(year);
      Ok(Archive("TIGER" + y + "/" + ToUpper(ty), "tl_" + y + "_" + state + "_" + ty))
    else
      Err(TigerYearUnavailable(year))
  }

  /** `construct_url`: every URL it builds is a zip archive under the root, and
      it builds one exactly for the published combinations. */
  function ConstructUrl(t: StateTable, year: int, queryType: string, cb: bool, resolution: string, state: string): (r: Result<string>)
    ensures r.Ok? ==> StartsWith(r.value, Root) && EndsWith(r.value, ".zip")
    ensures r.Ok? <==> Published(t, year, queryType, cb, state)
  {
    var ty := ToLower(queryType);
    if cb then CbUrl(year, ty, TypeAbbreviation(queryType), resolution, state)
    else TigerUrl(t, year, ty, state)
  }

  /** The decimal form of each year the rules name, one year at a time. */
  lemma Digits1990()
    ensures NatToString(1990) == "1990"
  {
  }

  lemma Digits2000()
    ensures NatToString(2000) == "2000"
  {
  }

  lemma Digits2008()
    ensures NatToString(2008) == "2008"
  {
  }

  lemma Digits2009()
    ensures NatToString(2009) == "2009"
  {
  }

  lemma Digits2010()
    ensures NatToString(2010) == "2010"
  {
  }

  lemma Digits2012()
    ensures NatToString(2012) == "2012"
  {
  }

  lemma Digits2020()
    ensures NatToString(2020) == "2020"
  {
  }

  /** The geography type names the examples use, in lower and upper case. */
  lemma StateCases()
    ensures ToLower("state") == "state" && ToUpper("state") == "STATE"
  {
  }

  lemma TractCases()
    ensures ToLower("tract") == "tract"
  {
  }

  /** The last two digits of the years whose archives carry them. */
  lemma LegacyYearDigits()
    ensures LastTwoDigits(1990) == "90" && LastTwoDigits(2000) == "00" && LastTwoDigits(2010) == "10"
  {
    Digits1990();
    Digits2000();
    Digits2010();
  }

  /** Cartographic 1990 and 2000: `PREVGENZ/{ab}/{ab}{yy}shp/{ab}{v}_d{yy}_shp.zip`,
      where `ab` is the first two letters of the type, `yy` the year's last two
      digits and `v` is "99" except for tracts, which name the state. The
      resolution plays no part. */
  lemma CbLegacyUrl(t: StateTable, year: int, queryType: string, resolution: string, state: string)
    requires year == 1990 || year == 2000
    ensures var ab := TypeAbbreviation(queryType);
            var yy := if year == 1990 then "90" else "00";
            var v := if ToLower(queryType) == "tract" then state else "99";
            ConstructUrl(t, year, queryType, true, resolution, state)
              == Ok(Archive("PREVGENZ/" + ab + "/" + ab + yy + "shp", ab + v + "_d" + yy + "_shp"))
  {
    Digits1990();
    Digits2000();
    LegacyYearDigits();
  }

  /** Cartographic 2010: `GENZ2010/gz_2010_{state}_{code}_00_{res}.zip` where
      `code` is the type's summary-level code; only state, county and tract
      have such an archive. */
  lemma Cb2010Url(t: StateTable, queryType: string, resolution: string, state: string)
    ensures var ty := ToLower(queryType);
            if ty in {"state", "county", "tract"} then
              ConstructUrl(t, 2010, queryType, true, resolution, state)
                == Ok(Archive("GENZ2010", "gz_2010_" + state + "_" + Constants.SummaryLevelCode(ty).value + "_00_" + resolution))
            else
              ConstructUrl(t, 2010, queryType, true, resolution, state) == Err(Cb2010TypeUnknown(ty))
  {
    var ty := ToLower(queryType);
    assert Constants.SummaryLevelCodes["state"] == "040";
    assert Constants.SummaryLevelCodes["county"] == "050";
    assert Constants.SummaryLevelCodes["tract"] == "140";
    if ty in {"state", "county", "tract"} {
      assert Cb2010Code(ty) == Constants.SummaryLevelCode(ty);
    }
  }

  /** Cartographic 2012: only congressional districts, state legislative
      districts and urban areas, under `GENZ2012/shp/cb_rd13_...`. */
  lemma Cb2012Url(t: StateTable, queryType: string, resolution: string, state: string)
    ensures var ty := ToLower(queryType);
            if IsCb2012Type(ty) then
              ConstructUrl(t, 2012, queryType, true, resolution, state)
                == Ok(Archive("GENZ2012/shp", "cb_rd13_" + state + "_" + ty + "_" + resolution))
            else
              ConstructUrl(t, 2012, queryType, true, resolution, state) == Err(Cb2012TypeUnsupported(ToLower(queryType)))
  {
    Digits2012();
    assert "GENZ" + NatToString(2012) + "/shp" == "GENZ2012/shp";
  }

  /** Cartographic 2013 sits directly in `GENZ2013/`; later years one level
      deeper, in `GENZ{year}/shp/`. */
  lemma CbModernUrl(t: StateTable, year: int, queryType: string, resolution: string, state: string)
    requires year >= 2013
    ensures var ty := ToLower(queryType);
            var y := NatToString(year);
            ConstructUrl(t, year, queryType, true, resolution, state)
              == Ok(Archive(if year == 2013 then "GENZ" + y else "GENZ" + y + "/shp", "cb_" + y + "_" + state + "_" + ty + "_" + resolution))
  {
  }

  /** Cartographic boundaries exist for no year outside 1990, 2000, 2010, 2012
      and 2013 onwards. */
  lemma CbYearRejected(t: StateTable, year: int, queryType: string, resolution: string, state: string)
    requires year !in {1990, 2000, 2010, 2012} && year < 2013
    ensures ConstructUrl(t, year, queryType, true, resolution, state) == Err(CbYearUnavailable(year))
  {
  }

  /** Full TIGER/Line 2000 and 2010 share the `TIGER2010` root, with the year
      as a directory and its last two digits on the type. */
  lemma Tiger2000And2010Url(t: StateTable, year: int, queryType: string, resolution: string, state: string)
    requires year == 2000 || year == 2010
    ensures var ty := ToLower(queryType);
            var y := if year == 2000 then "2000" else "2010";
            var yy := if year == 2000 then "00" else "10";
            ConstructUrl(t, year, queryType, false, resolution, state)
              == Ok(Archive("TIGER2010/" + ToUpper(ty) + "/" + y, "tl_2010_" + state + "_" + ty + yy))
  {
    Digits2000();
    Digits2010();
    LegacyYearDigits();
  }

  /** Full TIGER/Line 2008 and 2009 national state and county files sit
      directly in `TIGER{year}/`. */
  lemma Tiger2008And2009NationalUrl(t: StateTable, year: int, queryType: string, resolution: string, state: string)
    requires year == 2008 || year == 2009
    requires ToLower(queryType) in {"state", "county"} && state == "us"
    ensures var y := if year == 2008 then "2008" else "2009";
            ConstructUrl(t, year, queryType, false, resolution, state)
              == Ok(Archive("TIGER" + y, "tl_" + y + "_" + state + "_" + ToLower(queryType)))
  {
    Digits2008();
    Digits2009();
  }

  /** Every other 2008 and 2009 archive sits in a folder named by the state's
      code and its upper-cased name with blanks turned into underscores, with
      "00" on the type; a code the table lacks is an error. */
  lemma Tiger2008And2009StateUrl(t: StateTable, year: int, queryType: string, resolution: string, state: string)
    requires year == 2008 || year == 2009
    requires !(ToLower(queryType) in {"state", "county"} && state == "us")
    ensures var ty := ToLower(queryType);
            var y := if year == 2008 then "2008" else "2009";
            var r := ConstructUrl(t, year, queryType, false, resolution, state);
            (IsStateCode(t, state) ==>
              exists i :: 0 <= i < |t| && t[i].fips == state &&
                r == Ok(Archive("TIGER" + y + "/" + state + "_" + Replace(ToUpper(t[i].name), ' ', '_'),
                                "tl_" + y + "_" + state + "_" + ty + "00")))
            && (!IsStateCode(t, state) ==> r == Err(StateNameMissing(state)))
  {
    var ty := ToLower(queryType);
    assert ConstructUrl(t, year, queryType, false, resolution, state) == TigerUrl(t, year, ty, state);
    TigerStateFolderUrl(t, year, ty, state);
    if IsStateCode(t, state) {
      var name := GetStateName(t, state).value;
      var i :| 0 <= i < |t| && t[i].fips == state && t[i].name == name;
      assert StateFolderName(t, state) == Some(Replace(ToUpper(t[i].name), ' ', '_'));
    }
  }

  /** The per-state branch of 2008 and 2009, in terms of the folder name. */
  lemma TigerStateFolderUrl(t: StateTable, year: int, ty: string, state: string)
    requires year == 2008 || year == 2009
    requires !(ty in {"state", "county"} && state == "us")
    ensures var y := if year == 2008 then "2008" else "2009";
            TigerUrl(t, year, ty, state)
              == if IsStateCode(t, state)
                 then Ok(Archive("TIGER" + y + "/" + state + "_" + StateFolderName(t, state).value, "tl_" + y + "_" + state + "_" + ty + "00"))
                 else Err(StateNameMissing(state))
  {
    Digits2008();
    Digits2009();
  }

  /** Full TIGER/Line after 2010: `TIGER{year}/{TYPE}/tl_{year}_{state}_{type}.zip`. */
  lemma TigerModernUrl(t: StateTable, year: int, queryType: string, resolution: string, state: string)
    requires year > 2010
    ensures var ty := ToLower(queryType);
            var y := NatToString(year);
            ConstructUrl(t, year, queryType, false, resolution, state)
              == Ok(Archive("TIGER" + y + "/" + ToUpper(ty), "tl_" + y + "_" + state + "_" + ty))
  {
  }

  /** Full TIGER/Line files fail for 1990 with a hint to ask for cb, and for
      every other year before 2011 except 2000, 2008, 2009 and 2010. */
  lemma TigerYearRejected(t: StateTable, year: int, queryType: string, resolution: string, state: string)
    requires year !in {2000, 2008, 2009, 2010} && year <= 2010
    ensures ConstructUrl(t, year, queryType, false, resolution, state)
              == if year == 1990 then Err(TigerNeeds1990Cb) else Err(TigerYearUnavailable(year))
  {
  }

  /** The 2020 national state file, and two rejected requests. */
  lemma ConstructUrlExamples(t: StateTable)
    ensures ConstructUrl(t, 2020, "state", false, "500k", "us") == Ok(Archive("TIGER2020/STATE", "tl_2020_us_state"))
    ensures ConstructUrl(t, 1990, "state", false, "500k", "us") == Err(TigerNeeds1990Cb)
    ensures ConstructUrl(t, 2012, "tract", true, "500k", "25") == Err(Cb2012TypeUnsupported("tract"))
  {
    ModernStateExample(t);
    assert ConstructUrl(t, 1990, "state", false, "500k", "us") == Err(TigerNeeds1990Cb);
    TractCases();
  }

  lemma ModernStateExample(t: StateTable)
    ensures ConstructUrl(t, 2020, "state", false, "500k", "us") == Ok(Archive("TIGER2020/STATE", "tl_2020_us_state"))
  {
    Digits2020();
    StateCases();
    TigerModernUrl(t, 2020, "state", "500k", "us");
    assert "TIGER" + "2020" + "/" + "STATE" == "TIGER2020/STATE";
    assert "tl_" + "2020" + "_" + "us" + "_" + "state" == "tl_2020_us_state";
  }
}

=== FILE: validate.dfy ===
/** Identifier resolution: `validate_state` and `validate_county` turn a
    user's state or county token (FIPS code, name or abbreviation) into the
    canonical FIPS code, using the reference tables. */
module Validate {
  import opened Text
  import opened Results
  import opened Seqs
  import opened Tables

  /** The token as `validate_state` examines it: lower-cased, then stripped. */
  function NormaliseToken(s: string): string
  {
    Strip(ToLower(s))
  }

  /** What a normalised state token means, independently of the lookup order:
      it is the row's code, its name, its abbreviation, or a longer numeric
      code (a county or place FIPS) that starts with the row's code. */
  predicate Denotes(r: StateRecord, tok: string)
  {
    || tok == r.fips
    || tok == r.name
    || tok == r.abb
    || (IsNumeric(tok) && |tok| > 2 && tok[..2] == r.fips)
  }

  /** `validate_state`. Every code it returns is a code of the table, and the
      token denotes that code's row. */
  function ValidateState(t: StateTable, state: string): (r: Result<string>)
    requires LowerCaseStateTable(t)
    ensures r.Ok? ==> IsStateCode(t, r.value)
    ensures r.Ok? ==> exists i :: 0 <= i < |t| && t[i].fips == r.value && Denotes(t[i], NormaliseToken(state))
    ensures IsNumeric(NormaliseToken(state)) && |NormaliseToken(state)| < 2 ==> r.Err?
  {
    var tok := NormaliseToken(state);
    if IsNumeric(tok) then
      if |tok| == 2 && IsStateCode(t, tok) then Ok(tok)
      else if |tok| > 2 && IsStateCode(t, tok[..2]) then Ok(tok[..2])
      else Err(InvalidStateFips(tok))
    else
      match FirstIndex(t, (rec: StateRecord) => rec.name == tok)
      case Some(i) => Ok(t[i].fips)
      case None =>
        match FirstIndex(t, (rec: StateRecord) => rec.abb == tok)
        case Some(i) => Ok(t[i].fips)
        case None => Err(UnknownState(tok))
  }

  /** In a well-formed table every token that denotes a row resolves to that
      row's code, whichever of code, name, abbreviation or longer code it is. */
  lemma ValidateStateComplete(t: StateTable, state: string, i: nat)
    requires WellFormedStateTable(t)
    requires i < |t| && Denotes(t[i], NormaliseToken(state))
    ensures ValidateState(t, state) == Ok(t[i].fips)
  {
    var tok := NormaliseToken(state);
    if tok == t[i].name {
      NameFindsRow(t, tok, i);
    } else if tok == t[i].abb {
      AbbreviationFindsRow(t, tok, i);
    }
  }

  /** In a well-formed table the name search finds the row of that name. */
  lemma NameFindsRow(t: StateTable, tok: string, i: nat)
    requires WellFormedStateTable(t) && i < |t| && tok == t[i].name
    ensures !IsNumeric(tok)
    ensures FirstIndex(t, (rec: StateRecord) => rec.name == tok) == Some(i)
  {
    var k := FirstIndex(t, (rec: StateRecord) => rec.name == tok);
    assert k.Some?;
  }

  /** In a well-formed table an abbreviation is no name, and the abbreviation
      search finds its row. */
  lemma AbbreviationFindsRow(t: StateTable, tok: string, i: nat)
    requires WellFormedStateTable(t) && i < |t| && tok == t[i].abb
    ensures !IsNumeric(tok)
    ensures FirstIndex(t, (rec: StateRecord) => rec.name == tok).None?
    ensures FirstIndex(t, (rec: StateRecord) => rec.abb == tok) == Some(i)
  {
    var k := FirstIndex(t, (rec: StateRecord) => rec.abb == tok);
    assert k.Some?;
  }

  /** A well-formed table resolves a token exactly when the token denotes one of its rows. */
  lemma ValidateStateOkIff(t: StateTable, state: string)
    requires WellFormedStateTable(t)
    ensures ValidateState(t, state).Ok? <==> exists i :: 0 <= i < |t| && Denotes(t[i], NormaliseToken(state))
  {
    if i :| 0 <= i < |t| && Denotes(t[i], NormaliseToken(state)) {
      ValidateStateComplete(t, state, i);
    }
  }

  /** A row's code, or its name or abbreviation in any letter case and with
      surrounding white space, all resolve to the same code. */
  lemma ValidateStateAnyCase(t: StateTable, state: string, i: nat)
    requires WellFormedStateTable(t) && i < |t|
    requires Strip(state) == t[i].fips || ToLower(Strip(state)) == t[i].name || ToLower(Strip(state)) == t[i].abb
    ensures ValidateState(t, state) == Ok(t[i].fips)
  {
    assert Denotes(t[i], NormaliseToken(state)) by {
      StripCommutesWithLower(state);
      if Strip(state) == t[i].fips {
        LowerOfLower(t[i].fips);
      }
    }
    ValidateStateComplete(t, state, i);
  }

  /** Resolving an already resolved code gives the code back, which is what
      `validate_county` relies on when it resolves the state a second time. */
  lemma ValidateStateIdempotent(t: StateTable, state: string)
    requires WellFormedStateTable(t)
    requires ValidateState(t, state).Ok?
    ensures ValidateState(t, ValidateState(t, state).value) == ValidateState(t, state)
  {
    var code := ValidateState(t, state).value;
    var i :| 0 <= i < |t| && t[i].fips == code;
    LowerOfLower(code);
    StripOfStripped(code);
    ValidateStateComplete(t, code, i);
  }

  /** The counties of one state: `county_table[county_table["ST_FIPS"] == state]`. */
  function CountiesOf(ct: CountyTable, st: string): (r: CountyTable)
    ensures forall c :: c in r <==> c in ct && c.stateFips == st
  {
    Filter(ct, (c: CountyRecord) => c.stateFips == st)
  }

  /** `CT_NAME.str.lower().str.contains(county.lower())`, read as a literal substring test. */
  predicate NameMatches(c: CountyRecord, county: string)
  {
    Contains(ToLower(c.name), ToLower(county))
  }

  /** Exactly one of `counties` matches the name. */
  predicate UniqueNameMatch(counties: CountyTable, county: string)
  {
    exists k :: 0 <= k < |counties| && NameMatches(counties[k], county)
      && forall j :: 0 <= j < |counties| && j != k ==> !NameMatches(counties[j], county)
  }

  /** The counties whose name contains the token, in table order (the masked frame). */
  function NameHits(counties: CountyTable, county: string): seq<CountyRecord>
  {
    Filter(counties, (c: CountyRecord) => NameMatches(c, county))
  }

  lemma NoNameHits(counties: CountyTable, county: string)
    ensures |NameHits(counties, county)| == 0 <==> forall k :: 0 <= k < |counties| ==> !NameMatches(counties[k], county)
  {
    FilterEmptyIff(counties, (c: CountyRecord) => NameMatches(c, county));
  }

  lemma OneNameHit(counties: CountyTable, county: string)
    ensures |NameHits(counties, county)| == 1 <==> UniqueNameMatch(counties, county)
    ensures |NameHits(counties, county)| == 1 ==>
      exists k :: 0 <= k < |counties| && NameMatches(counties[k], county) && NameHits(counties, county)[0] == counties[k]
  {
    var p := (c: CountyRecord) => NameMatches(c, county);
    if |NameHits(counties, county)| == 1 {
      FilterSingle(counties, p);
    }
    if k :| 0 <= k < |counties| && p(counties[k]) && forall j :: 0 <= j < |counties| && j != k ==> !p(counties[j]) {
      FilterUnique(counties, p, k);
    }
  }

  lemma ManyNameHits(counties: CountyTable, county: string)
    ensures |NameHits(counties, county)| >= 2 <==>
      exists j, k :: 0 <= j < k < |counties| && NameMatches(counties[j], county) && NameMatches(counties[k], county)
  {
    var p := (c: CountyRecord) => NameMatches(c, county);
    if j, k :| 0 <= j < k < |counties| && p(counties[j]) && p(counties[k]) {
      ManyFilter(counties, p, j, k);
    }
    if |NameHits(counties, county)| >= 2 {
      FilterMany(counties, p);
    }
  }

  /** Every listed name is the name of one of the hits. */
  predicate NamesOfHits(names: seq<string>, hits: seq<CountyRecord>)
  {
    forall n :: n in names ==> exists c :: c in hits && c.name == n
  }

  /** The names listed in the ambiguity error, in table order. */
  function CandidateNames(hits: seq<CountyRecord>): (names: seq<string>)
    ensures |names| == |hits|
    ensures NamesOfHits(names, hits)
    ensures forall k :: 0 <= k < |hits| ==> names[k] == hits[k].name
  {
    var names := seq(|hits|, i requires 0 <= i < |hits| => hits[i].name);
    assert forall n :: n in names ==> exists i :: 0 <= i < |hits| && hits[i].name == n;
    names
  }

  /** The three outcomes of the fuzzy county-name match. */
  datatype CountyMatch = NotFound | Unique(code: string) | Ambiguous(names: seq<string>)

  /** Count the counties whose name contains the token and classify the count. */
  function MatchCountyName(counties: CountyTable, county: string): (m: CountyMatch)
    ensures m.NotFound? <==> forall k :: 0 <= k < |counties| ==> !NameMatches(counties[k], county)
    ensures m.Unique? <==> UniqueNameMatch(counties, county)
    ensures m.Unique? ==> exists k :: 0 <= k < |counties| && NameMatches(counties[k], county) && counties[k].countyFips == m.code
    ensures m.Ambiguous? <==> exists j, k :: 0 <= j < k < |counties| && NameMatches(counties[j], county) && NameMatches(counties[k], county)
    ensures m.Ambiguous? ==> |m.names| >= 2 && NamesOfHits(m.names, NameHits(counties, county))
    ensures m.Ambiguous? ==> m.names == CandidateNames(NameHits(counties, county))
  {
    MatchNotFound(counties, county);
    MatchUnique(counties, county);
    MatchAmbiguous(counties, county);
    MatchPayload(counties, county);
    Classify(NameHits(counties, county))
  }

  /** The outcome for a list of hits: none, one, or several. */
  function Classify(hits: seq<CountyRecord>): CountyMatch
  {
    if |hits| == 0 then NotFound
    else if |hits| == 1 then Unique(hits[0].countyFips)
    else Ambiguous(CandidateNames(hits))
  }

  /** The match finds nothing exactly when no county matches. */
  lemma MatchNotFound(counties: CountyTable, county: string)
    ensures Classify(NameHits(counties, county)).NotFound? <==> forall k :: 0 <= k < |counties| ==> !NameMatches(counties[k], county)
  {
    NoNameHits(counties, county);
  }

  /** The match is unique exactly when one county matches. */
  lemma MatchUnique(counties: CountyTable, county: string)
    ensures Classify(NameHits(counties, county)).Unique? <==> UniqueNameMatch(counties, county)
  {
    OneNameHit(counties, county);
  }

  /** The match is ambiguous exactly when two counties match. */
  lemma MatchAmbiguous(counties: CountyTable, county: string)
    ensures Classify(NameHits(counties, county)).Ambiguous? <==>
              exists j, k :: 0 <= j < k < |counties| && NameMatches(counties[j], county) && NameMatches(counties[k], county)
  {
    ManyNameHits(counties, county);
  }

  /** A unique match carries the matching county's code; an ambiguous one
      the names of all matching counties. */
  lemma MatchPayload(counties: CountyTable, county: string)
    ensures var m := Classify(NameHits(counties, county));
            m.Unique? ==> exists k :: 0 <= k < |counties| && NameMatches(counties[k], county) && counties[k].countyFips == m.code
    ensures var m := Classify(NameHits(counties, county));
            m.Ambiguous? ==> |m.names| >= 2 && NamesOfHits(m.names, NameHits(counties, county))
                             && m.names == CandidateNames(NameHits(counties, county))
  {
    OneNameHit(counties, county);
  }

  /** `validate_county`: resolve the state, then look the county token up
      among that state's counties only. */
  function ValidateCounty(t: StateTable, ct: CountyTable, state: string, county: string): (r: Result<string>)
    requires LowerCaseStateTable(t)
    ensures ValidateState(t, state).Err? ==> r == Err(ValidateState(t, state).error)
    ensures r.Ok? ==> exists c :: c in ct && c.stateFips == ValidateState(t, state).value && c.countyFips == r.value
    ensures ValidateState(t, state).Ok? && IsNumeric(county) ==>
      (r.Ok? <==> |county| == 3 && exists c :: c in ct && c.stateFips == ValidateState(t, state).value && c.countyFips == county)
    ensures r.Ok? && IsNumeric(county) ==> r.value == county
    ensures ValidateState(t, state).Ok? && !IsNumeric(county) ==>
      (r.Ok? <==> UniqueNameMatch(CountiesOf(ct, ValidateState(t, state).value), county))
    ensures ValidateState(t, state).Ok? && !IsNumeric(county) && r.Ok? ==>
      var counties := CountiesOf(ct, ValidateState(t, state).value);
      exists k :: 0 <= k < |counties| && NameMatches(counties[k], county) && counties[k].countyFips == r.value
    ensures ValidateState(t, state).Ok? && !IsNumeric(county) ==>
      (MatchCountyName(CountiesOf(ct, ValidateState(t, state).value), county).Ambiguous? <==> r.Err? && r.error.CountyAmbiguous?)
    ensures ValidateState(t, state).Ok? && !IsNumeric(county) ==>
      (MatchCountyName(CountiesOf(ct, ValidateState(t, state).value), county).NotFound? <==> r.Err? && r.error.CountyNotFound?)
    ensures ValidateState(t, state).Ok? && !IsNumeric(county) && r.Err? && r.error.CountyAmbiguous? ==>
      r.error.candidates == CandidateNames(NameHits(CountiesOf(ct, ValidateState(t, state).value), county))
  {
    var st :- ValidateState(t, state);
    var counties := CountiesOf(ct, st);
    if IsNumeric(county) then CountyByCode(counties, st, county) else CountyByName(counties, st, county)
  }

  /** A numeric token: a three-digit code of one of the state's counties. */
  function CountyByCode(counties: CountyTable, st: string, county: string): (r: Result<string>)
    ensures r.Ok? <==> |county| == 3 && exists c :: c in counties && c.countyFips == county
    ensures r.Ok? ==> r.value == county
    ensures r.Err? ==> r.error == InvalidCountyFips(county, st)
  {
    if |county| == 3 && exists k :: 0 <= k < |counties| && counties[k].countyFips == county then
      Ok(county)
    else
      assert forall c :: c in counties ==> exists k :: 0 <= k < |counties| && counties[k] == c;
      Err(InvalidCountyFips(county, st))
  }

  /** A name token: the code of the one county whose name contains it. */
  function CountyByName(counties: CountyTable, st: string, county: string): (r: Result<string>)
    ensures r.Ok? <==> UniqueNameMatch(counties, county)
    ensures r.Ok? ==> exists k :: 0 <= k < |counties| && NameMatches(counties[k], county) && counties[k].countyFips == r.value
    ensures r.Ok? ==> exists c :: c in counties && c.countyFips == r.value
    ensures MatchCountyName(counties, county).Ambiguous? <==> r.Err? && r.error.CountyAmbiguous?
    ensures MatchCountyName(counties, county).NotFound? <==> r.Err? && r.error.CountyNotFound?
    ensures r.Err? && r.error.CountyAmbiguous? ==> r.error.candidates == CandidateNames(NameHits(counties, county))
  {
    match MatchCountyName(counties, county)
    case NotFound => Err(CountyNotFound(county, st))
    case Unique(code) =>
      assert forall k :: 0 <= k < |counties| ==> counties[k] in counties;
      Ok(code)
    case Ambiguous(names) => Err(CountyAmbiguous(county, st, names))
  }
}
